=== FILE: README.md ===
# A verified model of the chat backend's request handlers

The system is an Express/Mongoose backend for a chat application.
- Users register and log in; a JSON Web Token admits their later requests.
- Users keep named chats.
- Users send messages that the server forwards, together with a window of the chat's history, to a chat-completion provider. It stores the exchange and returns the provider's reply.

This project models the four handler files of that backend as pure functions over immutable data, and proves properties of them in Dafny:

| module | file | what it models |
|---|---|---|
| `Wrappers` | `wrappers.dfy` | `Option` |
| `JsString` | `js_string.dfy` | `String.prototype.trim`, with the ECMAScript white-space set, and `split` on one character |
| `JsValue` | `js_value.dfy` | JSON-like request and response values, truthiness, property access, `String(v)` |
| `Sorting` | `sorting.dfy` | `.sort({ field: ±1 })` as a stable insertion sort |
| `Store` | `store.dfy` | the `Chat` and `Message` collections, the queries over them, and the store invariant |
| `Reply` | `reply.dfy` | `extractReply` |
| `Prompt` | `prompt.dfy` | the `HISTORY_LIMIT` window and the provider payload |
| `AiRoute` | `ai_route.dfy` | `POST /api/chat`: validation, provider call, persistence, error mapping |
| `ChatRoutes` | `chat_routes.dfy` | list, create, get, rename and delete of chats |
| `UserController` | `user_controller.dfy` | `registerUser` and `loginUser` |
| `AuthMiddleware` | `auth_middleware.dfy` | `protect` |
| `Ownership` | `ownership.dfy` | properties that span handlers: invariant preservation, isolation between users, cascade, "send then read" |

Each handler is a function of the store (or the user collection) and the request. What it returns depends on whether it writes:
- `CreateChat`, `RenameChat`, `DeleteChat` and `Send` write. Each returns an `Outcome` holding the next store and the HTTP answer.
- `ListChats` and `GetChat` only read. Each returns the answer alone, a `ChatReply`.
- `Register` returns a pair: the next user collection and its `RegisterReply`.
- `Login` writes nothing and returns a `LoginReply`.
- `Protect` returns an `AuthOutcome`: the admitted user, or the 401 it answers.

Things the database, the random source or a library decide are parameters:
- `validId` stands for `mongoose.isValidObjectId`.
- `freshId`, `userMsgId` and `botMsgId` are the ids the database assigns.
- `salt` is bcrypt's salt, and `Bcrypt` is a pair of hash and compare functions.
- `Jwt` is a pair of sign and verify functions.
- `call` is the provider, a function from the payload to what axios reports.

Mongoose's `createdAt`/`updatedAt` become a logical clock in the store.
- The writes Mongoose stamps take the current value and advance it: creating a chat, renaming one, and a send's two message inserts and its `updatedAt` bump.
- A delete (`findOneAndDelete` and the cascading `deleteMany`) stamps nothing and leaves the clock unchanged.

A `findOne` is the first match in insertion order.

Where the code and its documented intent differ, the model follows the code:
- **Rename stamps `updatedAt`.** The chat schema enables timestamps (models/Chat.js:9), and Mongoose applies them to `findOneAndUpdate`.
- **A whitespace-only title on create stores `""`.** The schema default applies only when the title is `undefined`, while routes/chatRoutes.js:25 passes the trimmed empty string. Rename, by contrast, falls back to `"Untitled Chat"` (routes/chatRoutes.js:67).
- **The bump after a send is not scoped to the caller.** It is keyed on the chat id alone (routes/aiRoutes.js:162). `PersistIsolated` therefore needs unique chat ids, which the store invariant provides.

## Model

| member | source | states |
|---|---|---|
| JsString.Trim | routes/aiRoutes.js:62-63 | the result has no white space at either end, and the input is that result with only white space before and after it |
| JsString.TrimOfPadded | routes/aiRoutes.js:33 | trimming is determined by its result: trimmed text wrapped in any white space trims back to itself |
| JsString.TrimOfTrimmed | routes/aiRoutes.js:33 | text with no white space at either end is unchanged by trimming |
| JsString.TrimIdempotent | routes/aiRoutes.js:33-41 | trimming twice equals trimming once |
| JsString.TrimEmptyIffAllSpace | routes/aiRoutes.js:62-65 | the trimmed message is empty exactly when the input is all white space, which is when "Message is required." is answered |
| JsString.Split | middleware/authMiddleware.js:10 | splitting on a separator gives at least one piece, and no piece contains the separator |
| JsString.JoinSplit | middleware/authMiddleware.js:10 | splitting loses nothing: rejoining the pieces with the separator restores the header |
| JsString.SplitJoin | middleware/authMiddleware.js:10 | the converse: separator-free pieces, joined and split again, come back unchanged |
| JsValue.Field | routes/aiRoutes.js:62-63 | property access yields the object's own field when present and `undefined` otherwise |
| JsValue.ToJsString | routes/aiRoutes.js:62-63 | `String(v)` fails exactly when the value is, or an array holds, an object with an own `toString` key; otherwise a string converts to itself, a plain object to `[object Object]`, a boolean to `true`/`false`, an empty array to `""`, and a number to non-empty text that is all digits when the number is not negative |
| JsValue.DecimalNatDenotes | routes/aiRoutes.js:62-63 | the digits written for a natural number are a canonical numeral (no leading zero unless the number is zero) whose decimal value is that number |
| JsValue.NumberText | routes/aiRoutes.js:62-63 | `String(n)` for an integer is its canonical numeral, after a `-` when `n` is negative, and that numeral denotes the absolute value of `n`: the text determines the number |
| JsValue.ElementText | routes/aiRoutes.js:62-63 | `join` writes `null` and `undefined` elements as `""` and any other element as its `String`; it fails exactly when that `String` throws |
| JsValue.ItemTexts | routes/aiRoutes.js:62-63 | one text per element, position by position, each the element's `join` text; it fails exactly when some element's conversion throws |
| JsValue.ArrayText | routes/aiRoutes.js:62-63 | a non-empty array that converts is its elements' texts joined with commas |
| JsValue.TrimmedField | routes/aiRoutes.js:62-63 | a falsy field gives the fallback; a truthy one gives its `String` text trimmed, or fails exactly when `String` throws; a string field yields its own text trimmed |
| Reply.FirstChoice | routes/aiRoutes.js:27-29 | there is a first choice exactly when the data is truthy, `choices` is an array, and its first element is truthy |
| Reply.StringField | routes/aiRoutes.js:37 | `typeof v[key] === "string"`: there is a text exactly when the field holds a string, and it is that string |
| Reply.NestedString | routes/aiRoutes.js:32 | `v[outer][key]` is used only when `v[outer]` is truthy and the inner field is a string |
| Reply.RawReply | routes/aiRoutes.js:32-44 | there is a raw reply exactly when one of the three shapes (`message.content`, `text`, `delta.content`) holds a string, and it is then one of those shapes' text; `Reply.MessageContentWins`, `Reply.TextWinsOverDelta` and `Reply.DeltaIsLastResort` fix which one |
| Reply.ExtractReply | routes/aiRoutes.js:26-45 | the reply is trimmed; it is `""` when there is no choice or no shape applies, and otherwise the first applicable shape's text, trimmed |
| Reply.ExtractReplyEmpty | routes/aiRoutes.js:26-45 | the reply is empty if and only if there is no choice, no shape applies, or the text found is all white space |
| Reply.ExtractReplyTrimStable | routes/aiRoutes.js:33-41 | every extracted reply is already trimmed: trimming it again changes nothing |
| Reply.MessageContentWins | routes/aiRoutes.js:32-34 | a string `message.content` decides the reply, whatever `text` and `delta` hold |
| Reply.TextWinsOverDelta | routes/aiRoutes.js:36-37 | without a usable `message.content`, a string `text` decides the reply, whatever `delta` holds |
| Reply.DeltaIsLastResort | routes/aiRoutes.js:39-44 | when neither earlier shape holds a string, only `delta.content` decides, and a non-string there gives no reply |
| Reply.OnlyFirstChoiceMatters | routes/aiRoutes.js:27-29 | choices after the first never affect the reply |
| Reply.NoChoiceNoReply | routes/aiRoutes.js:27 | falsy data, non-array `choices`, an empty array or a falsy first choice all yield `""` |
| Reply.StandardShape | routes/aiRoutes.js:31-34 | the OpenAI-style response `{choices: [{message: {content: t}}]}` yields `t` trimmed |
| Sorting.Insert | routes/chatRoutes.js:14 | inserting into a sorted sequence keeps it sorted and adds exactly the one element |
| Sorting.SortBy | routes/chatRoutes.js:14 | the result is a permutation of the input (same multiset) in non-decreasing key order |
| Store.ChatsOf | routes/chatRoutes.js:13 | a chat is in the result exactly when it is in the store and owned by the user |
| Store.ChatsOfCount | routes/chatRoutes.js:13 | `find({ user })` keeps each of the user's chats exactly as often as it is stored, and no chat of anyone else |
| Store.Thread | routes/chatRoutes.js:46 | a message is in the thread exactly when it is stored with that chat id and that user |
| Store.DropThread | routes/chatRoutes.js:97 | `deleteMany` keeps exactly the messages outside the chat's thread for that user: what it keeps and the thread together are the original collection, counted with multiplicity |
| Store.Empty | models/Message.js:3-16 | the empty database satisfies the store invariant, the base case from which the handlers' `…KeepsValid` lemmas carry it to every reachable store |
| Store.FindById | routes/aiRoutes.js:162 | `updateOne({_id})` targets the first chat with that id, whoever owns it, and finds nothing only when no chat has it |
| Store.FindOwned | routes/chatRoutes.js:41 | `findOne({_id, user})` finds the first chat with both that id and that owner, and finds nothing only when none matches |
| Store.OwnedChat | routes/aiRoutes.js:72 | the chat found is in the store with the requested id and the caller as owner; no match means no such chat |
| Store.ByRecency | routes/chatRoutes.js:13-15 | the list is a permutation of the chats given, most recently updated first |
| Store.ThreadByAge | routes/chatRoutes.js:46-47 | the thread, as a permutation, oldest message first |
| Prompt.Window | routes/aiRoutes.js:81 | `slice(-12)` keeps the last `min(12, n)` messages and leaves their order alone |
| Prompt.ToTurn | routes/aiRoutes.js:82-83 | a message speaks as the assistant exactly when it is a bot message, never as the system, with its text unchanged |
| Prompt.ToTurns | routes/aiRoutes.js:81-84 | one turn per message, position by position |
| Prompt.BuildMessages | routes/aiRoutes.js:86-92 | `min(12, n) + 2` turns: the system turn, then the last stored messages in order, then the new user turn |
| Prompt.BuildPayload | routes/aiRoutes.js:86-92 | the payload carries the configured model and exactly those turns |
| Prompt.ShortHistoryReplayedWhole | routes/aiRoutes.js:81 | a history of at most twelve messages is replayed in full |
| Prompt.SystemTurnOnlyFirst | routes/aiRoutes.js:88-91 | only the first turn is a system turn |
| Prompt.WindowSlides | routes/aiRoutes.js:81 | one more stored message grows the window until it is full, and after that pushes out its oldest element |
| AiRoute.RequestMessage | routes/aiRoutes.js:62-65 | a falsy `message` gives `""`; a truthy one gives its `String` text trimmed, and fails exactly when it cannot be converted; the message is empty exactly when `message` is falsy or converts to white space only |
| AiRoute.RequestChatId | routes/aiRoutes.js:63 | a falsy `chatId` gives `""`; a truthy one gives its `String` text trimmed, and fails exactly when it cannot be converted; a string id is its own text trimmed |
| AiRoute.CatchReply | routes/aiRoutes.js:165-185 | whatever was thrown is a 502 without details; the auth text exactly for status 401 or 403, the rate-limit text exactly for 429, and "AI request failed" for everything else, including no status |
| AiRoute.ClassifyThrown | routes/aiRoutes.js:178-185 | 401 and 403 are auth failures, 429 is rate limiting, and anything else, including no status, is the generic failure |
| AiRoute.Validate | routes/aiRoutes.js:58-73 | checks in order: missing key 500, a `message` or `chatId` that `String` cannot convert 502 "AI request failed" (the `catch`), empty message 400, over 5000 characters 400, invalid id 400, chat not the caller's 404; accepted exactly when all pass, carrying the trimmed message and the caller's chat |
| AiRoute.ErrorDetails | routes/aiRoutes.js:128 | `details` is the provider error's `message` when that is truthy, and "Unknown provider error" otherwise, so it is always truthy |
| AiRoute.Persist | routes/aiRoutes.js:147-162 | appends exactly the user message and then the bot reply paired to it, and bumps only the chat with that id |
| AiRoute.Respond | routes/aiRoutes.js:119-185 | succeeds exactly when the answer has no truthy `error` and a non-empty reply; a failure is a 502 that writes nothing, and a rejected call gets the `catch` answer for its status; a success persists that reply |
| AiRoute.Send | routes/aiRoutes.js:54-186 | every failure leaves the store unchanged with status 400, 404, 500 or 502; a success stores the validated message and a non-empty trimmed reply |
| AiRoute.UnconvertibleFieldIs502 | routes/aiRoutes.js:62-63 | with the key configured, a truthy `message` or `chatId` that `String` cannot convert throws into the `catch`: 502 "AI request failed", nothing written |
| AiRoute.RefusedBeforeProvider | routes/aiRoutes.js:58-73 | a refused request gets the same answer whatever the provider would have done, and the store is untouched |
| AiRoute.OnlyThePayloadIsSent | routes/aiRoutes.js:113-117 | the outcome depends on the provider only through its answer to the one payload |
| AiRoute.PayloadShape | routes/aiRoutes.js:75-92 | the payload is framed by the system turn and the new message, with at most twelve turns between, each taken from the caller's thread |
| AiRoute.ThrownStatusMapping | routes/aiRoutes.js:165-186 | a rejected provider call is a 502 with the error text its status maps to, and nothing is written |
| AiRoute.UnusableAnswerIs502 | routes/aiRoutes.js:119-144 | an error payload (with its details) or an empty reply is a 502 that persists nothing |
| AiRoute.UsableAnswerSucceeds | routes/aiRoutes.js:132-164 | no error payload and a non-empty reply always succeed, returning exactly that reply |
| ChatRoutes.ListChats | routes/chatRoutes.js:11-20 | each of the caller's chats exactly as often as it is stored and no other chat, most recently updated first |
| ChatRoutes.CreateTitle | routes/chatRoutes.js:25 | a missing or falsy title gives the schema default; a truthy one is its `String` text trimmed; it fails exactly when `String(title)` throws |
| ChatRoutes.CreateChat | routes/chatRoutes.js:23-31 | a title that cannot be converted is a 500 that writes nothing; otherwise exactly one chat is added, owned by the caller, with that title and fresh timestamps; messages are untouched |
| ChatRoutes.GetChat | routes/chatRoutes.js:34-54 | invalid id 400; no chat of the caller 404; otherwise that chat's title with exactly the caller's messages of it, the same multiset as the thread, oldest first |
| ChatRoutes.RenameTitle | routes/chatRoutes.js:64-67 | the stored title is never empty: the trimmed input, or "Untitled Chat" when the input is missing, falsy or only white space; it fails exactly when `String(title)` throws |
| ChatRoutes.RenameChat | routes/chatRoutes.js:57-79 | invalid id 400, then an unconvertible title 500 (before the lookup), then not-found 404, each leaving the store alone; otherwise only the caller's matching chat changes, in title and `updatedAt` |
| ChatRoutes.DeleteChat | routes/chatRoutes.js:83-99 | invalid id 400 and not-found 404 remove nothing; otherwise exactly that chat goes, with exactly its thread for the caller: the messages kept and that thread together are the original messages, counted with multiplicity |
| UserController.FindUser | controllers/userController.js:8 | looks a user up by login name (`findOne({ userId })`) or by id (`findById`); finds one the key matches, and finds none only when none matches |
| UserController.Register | controllers/userController.js:5-16 | a taken login name is refused (400) and the users are unchanged; otherwise exactly one user is added, holding bcrypt's hash of the password for the drawn salt |
| UserController.Login | controllers/userController.js:18-32 | succeeds exactly when the user exists and `bcrypt.compare` accepts the password against the stored hash, returning a token signed for that user's id; every refusal is the same "Invalid credentials"; no user collection is returned, so nothing is written |
| UserController.RegisterKeepsUsersValid | controllers/userController.js:5-16 | registration keeps login names and ids unique |
| UserController.LoginFailuresIndistinguishable | controllers/userController.js:21-25 | a wrong password and an unknown login name get the identical refusal |
| UserController.RegisterThenLogin | controllers/userController.js:5-32 | given that a hash accepts its own password, after registering the same password logs in with a token for the new id, and a password the stored hash does not accept is refused |
| AuthMiddleware.BearerToken | middleware/authMiddleware.js:10-15 | an accepted token is non-empty and contains no space |
| AuthMiddleware.Protect | middleware/authMiddleware.js:4-28 | admits exactly when the header is present and well formed, the token verifies, and the user exists, setting that user without the password; each failure is its own 401 |
| AuthMiddleware.BearerTokenShape | middleware/authMiddleware.js:10-15 | the headers accepted are exactly `Bearer`, one space, a non-empty space-free token, then either the end or a space |
| AuthMiddleware.ExtraPartsIgnored | middleware/authMiddleware.js:15 | words after the token do not change it |
| AuthMiddleware.MalformedHeadersRefused | middleware/authMiddleware.js:10-13 | `Bearer` alone, or `Bearer` followed by two spaces, is refused with "Not authorized" |
| AuthMiddleware.EmptyTokenRejected | middleware/authMiddleware.js:11 | a second space right after `Bearer ` leaves an empty second part, so no token is taken, whatever follows |
| AuthMiddleware.SignedTokenAdmits | middleware/authMiddleware.js:15-24 | if the token library is sound, a token it signed for an existing user admits the request as that user |
| AuthMiddleware.RegisterLoginProtect | middleware/authMiddleware.js:15-24 | register, log in, present the token: the request is admitted as the new user |
| Ownership.CreateKeepsValid | routes/chatRoutes.js:23-31 | creating a chat with a fresh id keeps the store invariant |
| Ownership.RenameKeepsValid | routes/chatRoutes.js:57-79 | renaming keeps the store invariant |
| Ownership.DeleteKeepsValid | routes/chatRoutes.js:83-99 | deleting with the cascade keeps the store invariant: no message is left without its chat |
| Ownership.PersistKeepsValid | routes/aiRoutes.js:147-162 | the writes of a successful send keep the store invariant, given fresh message ids |
| Ownership.SendKeepsValid | routes/aiRoutes.js:54-187 | every send, successful or not, keeps the store invariant |
| Ownership.CreateIsolated | routes/chatRoutes.js:26 | creating leaves every other user's chats and messages as they were |
| Ownership.RenameIsolated | routes/chatRoutes.js:65-69 | renaming leaves every other user's chats and messages as they were |
| Ownership.DeleteIsolated | routes/chatRoutes.js:91-97 | deleting leaves every other user's chats and messages as they were |
| Ownership.PersistIsolated | routes/aiRoutes.js:147-162 | with unique chat ids, the writes of a send leave every other user's records as they were |
| Ownership.SendIsolated | routes/aiRoutes.js:72-164 | with unique chat ids, a send leaves every other user's records as they were |
| Ownership.ListReadsOwnView | routes/chatRoutes.js:13 | the list depends only on the caller's own chats |
| Ownership.GetReadsOwnView | routes/chatRoutes.js:41-48 | reading a chat depends only on the caller's own chats and messages |
| Ownership.CreatedChatListedForOwnerOnly | routes/chatRoutes.js:13-26 | a new chat appears in its owner's list and in no one else's |
| Ownership.DeleteCascades | routes/chatRoutes.js:91-97 | after a delete, getting the chat is a 404 and the caller's thread of it is empty |
| Ownership.PersistBringsChatToTop | routes/aiRoutes.js:162 | after a successful exchange the chat heads its owner's list |
| Ownership.SendBringsChatToTop | routes/aiRoutes.js:147-164 | a successful send puts the requested chat first in the caller's list |
| Ownership.PersistThenGet | routes/aiRoutes.js:147-160 | reading the chat back ends with the stored user message and then the bot reply paired to it |
| Ownership.AppendedPairComesLast | routes/chatRoutes.js:46-47 | two thread messages stamped after everything older come last, in order, when the thread is read oldest first |
| Ownership.SendThenGetEndsWithPair | routes/aiRoutes.js:147-164 | after a successful send the thread ends with the request's message and then the returned reply, paired |

## Left out

- Database failures: every `catch` that answers 500 (`Failed to fetch chats.` and the rest), the AI route's `catch` answering a failed `findOne`, `find` or `create` with 502 "AI request failed" (routes/aiRoutes.js:165-185), and a partial write when the second `Message.create` or the `updateOne` fails after the first insert. The model treats each database call as succeeding.
- The HTTP transport and provider plumbing: the URL, headers, the 90-second timeout, `temperature` and `max_tokens`, and the referer and title settings. The provider is an arbitrary function of the payload.
- Logging and the `Math.random` correlation id, which have no effect on answers.
- `AiRoute.Validate`: the 5000 limit counts Unicode scalar values, whereas JavaScript's `length` counts UTF-16 code units. Messages with characters outside the Basic Multilingual Plane are therefore measured shorter than the source measures them.
- `JsValue.Field`: only own data fields are seen. Inherited properties such as `constructor` are not modelled, so such a key reads as `undefined`.
- `JsValue.ToJsString`: numbers are integers and print as decimal digits. Floating-point values are not modelled, nor is the exponent form JavaScript uses for integers of 22 digits or more.
- `ChatRoutes.ListChats` and `ChatRoutes.GetChat` return whole records. The `.select(...)` projections of routes/chatRoutes.js:15,48 are not modelled.
- `Ownership.PersistBringsChatToTop` and `Ownership.SendBringsChatToTop` rely on the logical clock: the bumped `updatedAt` is strictly later than every earlier stamp. With real `Date` values another of the caller's chats can carry the same millisecond, and `sort({ updatedAt: -1 })` then leaves the order of the two to the database.
- `Ownership.SendThenGetEndsWithPair` rests on `Ownership.PersistThenGet` and inherits its strictly increasing clock, described next.
- `Ownership.PersistThenGet` relies on the logical clock giving each write a strictly later stamp. Two real `Date` values taken within one millisecond can be equal, and the source then leaves the order of the pair under `sort({ createdAt: 1 })` to the database.
- `UserController.Register` and `UserController.Login` take the login name and password as strings. A body without them (bcrypt rejecting `undefined`) is not modelled. Neither is an object-valued `userId`, such as `{"$gt": ""}`, which would reach `findOne({ userId })` (controllers/userController.js:8,21) as a query operator.
- Token expiry (`expiresIn: "7d"`) and the server secret are not modelled. `verify` is an arbitrary function that may reject any token. `UserController.Sound` is a stated assumption on the token library, used only as a premise.
- bcrypt is a pair of functions, `hash` and `compare`. The only property assumed of it is `UserController.Accepts`: a hash accepts the password it was made from. The cost factor 10 and the salt format are not modelled.
- `UserController.RegisterThenLogin` does not promise that a different password is refused. bcryptjs compares only the first 72 bytes of the password, so two passwords that share those bytes both log in. The lemma refuses only a password that `compare` rejects against the stored hash.
- Object-id casting is not modelled: ids are compared as strings, after the `validId` check.
- Concurrency: handlers run one at a time.
- Process start-up and route wiring (server.js, app.js) are not part of this model.

=== FILE: ai_route.dfy ===
/**
 * `POST /api/chat` (routes/aiRoutes.js): validate the request, replay the
 * chat's recent history to the completion provider, and on a usable answer
 * persist the user message and the bot reply, paired, before answering with
 * the reply text. The provider call is a parameter: any function from the
 * payload to what axios reports.
 */
module AiRoute {

  import opened Wrappers
  import opened JsString
  import opened JsValue
  import opened Store
  import opened Prompt
  import opened Reply

  /** Longest accepted message, in characters. */
  const MaxMessageLength: nat := 5000

  /** The provider configuration read from the environment. */
  datatype Provider = Provider(apiKey: string, model: string)

  /** What `await axios.post(…)` produced: a resolved response's `data`, or
      a rejection carrying the upstream HTTP status when there was one. */
  datatype Upstream = Answered(data: Json) | Threw(status: Option<int>)

  /** The HTTP answer of the route. */
  datatype SendReply =
    | Replied(reply: string)
    | SendFailed(status: nat, error: string, details: Option<Json>)

  /** How a rejected provider call is reported. */
  datatype UpstreamFailure = AuthFailed | RateLimited | RequestFailed

  /** The error kind of a rejected provider call, from its status. */
  function ClassifyThrown(status: Option<int>): (k: UpstreamFailure)
    ensures k == AuthFailed <==> status == Some(401) || status == Some(403)
    ensures k == RateLimited <==> status == Some(429)
  {
    if status == Some(401) || status == Some(403) then AuthFailed
    else if status == Some(429) then RateLimited
    else RequestFailed
  }

  /** The `catch` block's answer to anything thrown inside the handler:
      a 502 whose text depends only on the upstream status, if any. */
  function CatchReply(status: Option<int>): (r: SendReply)
    ensures r.SendFailed? && r.status == 502 && r.details == None
    ensures r.error == "AI auth failed (check API key)" <==> status == Some(401) || status == Some(403)
    ensures r.error == "AI rate limited (try again soon)" <==> status == Some(429)
    ensures r.error == "AI request failed" <==> status != Some(401) && status != Some(403) && status != Some(429)
  {
    var text := match ClassifyThrown(status)
      case AuthFailed => "AI auth failed (check API key)"
      case RateLimited => "AI rate limited (try again soon)"
      case RequestFailed => "AI request failed";
    SendFailed(502, text, None)
  }

  /** `req.body?.message ? String(req.body.message).trim() : ""`, `None`
      when `String` throws. */
  function RequestMessage(body: Json): (r: Option<string>)
    ensures r.None? <==> Truthy(Field(body, "message")) && StringThrows(Field(body, "message"))
    ensures !Truthy(Field(body, "message")) ==> r == Some("")
    ensures Truthy(Field(body, "message")) && r.Some? ==> r.value == Trim(ToJsString(Field(body, "message")).value)
    ensures r.Some? ==> Trimmed(r.value)
    ensures r == Some("") <==>
      !Truthy(Field(body, "message"))
      || (ToJsString(Field(body, "message")).Some? && AllSpace(ToJsString(Field(body, "message")).value))
  {
    var r := TrimmedField(body, "message", "");
    var v := Field(body, "message");
    if Truthy(v) && r.Some? then TrimEmptyIffAllSpace(ToJsString(v).value); r else r
  }

  /** `req.body?.chatId ? String(req.body.chatId).trim() : ""`, `None`
      when `String` throws. */
  function RequestChatId(body: Json): (r: Option<string>)
    ensures r.None? <==> Truthy(Field(body, "chatId")) && StringThrows(Field(body, "chatId"))
    ensures !Truthy(Field(body, "chatId")) ==> r == Some("")
    ensures Truthy(Field(body, "chatId")) && r.Some? ==> r.value == Trim(ToJsString(Field(body, "chatId")).value)
    ensures r.Some? ==> Trimmed(r.value)
    ensures Field(body, "chatId").Str? ==> r == Some(Trim(Field(body, "chatId").s))
  {
    TrimmedField(body, "chatId", "")
  }

  /** The result of the checks made before the provider is called. */
  datatype Checked = Accepted(message: string, chat: Chat) | Refused(reply: SendReply)

  /** The checks, in the order the handler makes them: configuration, the
      conversion of `message` and `chatId` (whose TypeError the `catch`
      answers), empty message, over-long message, malformed chat id, chat
      not the caller's. */
  function Validate(p: Provider, validId: string -> bool, s: Store, caller: Oid, body: Json): (c: Checked)
    ensures p.apiKey == "" ==> c == Refused(SendFailed(500, "Missing OPENROUTER_API_KEY", None))
    ensures p.apiKey != "" && (RequestMessage(body).None? || RequestChatId(body).None?)
      ==> c == Refused(SendFailed(502, "AI request failed", None))
    ensures var m, id := RequestMessage(body), RequestChatId(body);
      p.apiKey != "" && m == Some("") && id.Some?
      ==> c == Refused(SendFailed(400, "Message is required.", None))
    ensures var m, id := RequestMessage(body), RequestChatId(body);
      p.apiKey != "" && m.Some? && m.value != "" && |m.value| > MaxMessageLength && id.Some?
      ==> c == Refused(SendFailed(400, "Message too long (max 5000 chars).", None))
    ensures var m, id := RequestMessage(body), RequestChatId(body);
      p.apiKey != "" && m.Some? && m.value != "" && |m.value| <= MaxMessageLength && id.Some? && !validId(id.value)
      ==> c == Refused(SendFailed(400, "Invalid chat id.", None))
    ensures var m, id := RequestMessage(body), RequestChatId(body);
      c.Accepted? <==>
      && p.apiKey != "" && m.Some? && id.Some?
      && m.value != "" && |m.value| <= MaxMessageLength
      && validId(id.value)
      && OwnedChat(s.chats, id.value, caller).Some?
    ensures var m, id := RequestMessage(body), RequestChatId(body);
      c.Refused? && p.apiKey != "" && m.Some? && id.Some? && m.value != ""
      && |m.value| <= MaxMessageLength && validId(id.value)
      ==> c == Refused(SendFailed(404, "Chat not found.", None))
    ensures c.Accepted? ==>
      && Some(c.message) == RequestMessage(body)
      && Some(c.chat) == OwnedChat(s.chats, RequestChatId(body).value, caller)
  {
    if p.apiKey == "" then Refused(SendFailed(500, "Missing OPENROUTER_API_KEY", None))
    else match (RequestMessage(body), RequestChatId(body))
      case (None, _) => Refused(CatchReply(None))
      case (_, None) => Refused(CatchReply(None))
      case (Some(message), Some(chatId)) =>
        if message == "" then Refused(SendFailed(400, "Message is required.", None))
        else if |message| > MaxMessageLength then Refused(SendFailed(400, "Message too long (max 5000 chars).", None))
        else if !validId(chatId) then Refused(SendFailed(400, "Invalid chat id.", None))
        else match OwnedChat(s.chats, chatId, caller)
          case None => Refused(SendFailed(404, "Chat not found.", None))
          case Some(chat) => Accepted(message, chat)
  }

  /** The payload sent for an accepted request: the caller's thread of the
      chat, oldest first, windowed, around the new message. */
  function RequestPayload(p: Provider, s: Store, caller: Oid, message: string, chat: Chat): Payload {
    BuildPayload(p.model, ThreadByAge(s.messages, chat.id, caller), message)
  }

  /** `details` of a provider error payload: its `message`, if truthy. */
  function ErrorDetails(error: Json): (d: Json)
    ensures Truthy(d)
    ensures Truthy(Field(error, "message")) ==> d == Field(error, "message")
    ensures !Truthy(Field(error, "message")) ==> d == Str("Unknown provider error")
  {
    var m := Field(error, "message");
    if Truthy(m) then m else Str("Unknown provider error")
  }

  /** The two writes of a successful exchange and the timestamp bump:
      the user message, then the bot reply paired to it, then the chat's
      `updatedAt`. */
  function Persist(s: Store, chat: Chat, caller: Oid, message: string, reply: string,
                   userMsgId: Oid, botMsgId: Oid): (s': Store)
    ensures s'.clock == s.clock + 3
    ensures var n := |s.messages|;
      && |s'.messages| == n + 2
      && s'.messages[..n] == s.messages
      && s'.messages[n] == Message(userMsgId, chat.id, caller, UserSender, message, None, s.clock)
      && s'.messages[n + 1] == Message(botMsgId, chat.id, caller, BotSender, reply, Some(userMsgId), s.clock + 1)
    ensures |s'.chats| == |s.chats|
    ensures forall i :: 0 <= i < |s.chats| ==>
      s'.chats[i] == (if Some(i) == FindById(s.chats, chat.id) then s.chats[i].(updatedAt := s.clock + 2) else s.chats[i])
  {
    var userMsg := Message(userMsgId, chat.id, caller, UserSender, message, None, s.clock);
    var botMsg := Message(botMsgId, chat.id, caller, BotSender, reply, Some(userMsg.id), s.clock + 1);
    var chats := match FindById(s.chats, chat.id)
      case None => s.chats
      case Some(i) => s.chats[i := s.chats[i].(updatedAt := s.clock + 2)];
    Store(chats, s.messages + [userMsg, botMsg], s.clock + 3)
  }

  /** What the handler does with the provider's answer to an accepted
      request for `message` in `chat`. */
  function Respond(s: Store, chat: Chat, caller: Oid, message: string, up: Upstream,
                   userMsgId: Oid, botMsgId: Oid): (out: Outcome<SendReply>)
    ensures out.reply.SendFailed? ==> out.store == s && out.reply.status == 502
    ensures up.Threw? ==> out == Outcome(s, CatchReply(up.status))
    ensures out.reply.Replied? <==> up.Answered? && !Truthy(Field(up.data, "error")) && ExtractReply(up.data) != ""
    ensures out.reply.Replied? ==>
      && out.reply.reply == ExtractReply(up.data)
      && out.store == Persist(s, chat, caller, message, out.reply.reply, userMsgId, botMsgId)
  {
    match up
    case Threw(status) => Outcome(s, CatchReply(status))
    case Answered(data) =>
      var error := Field(data, "error");
      if Truthy(error) then Outcome(s, SendFailed(502, "AI provider error", Some(ErrorDetails(error))))
      else
        var reply := ExtractReply(data);
        if reply == "" then Outcome(s, SendFailed(502, "AI returned empty response", None))
        else Outcome(Persist(s, chat, caller, message, reply, userMsgId, botMsgId), Replied(reply))
  }

  /** The whole handler. `call` is the provider; `userMsgId` and `botMsgId`
      are the ids the database assigns to the two new messages. */
  function Send(p: Provider, validId: string -> bool, s: Store, caller: Oid, body: Json,
                call: Payload -> Upstream, userMsgId: Oid, botMsgId: Oid): (out: Outcome<SendReply>)
    // every failure path leaves the store as it was
    ensures out.reply.SendFailed? ==> out.store == s
    ensures out.reply.SendFailed? ==> out.reply.status in {400, 404, 500, 502}
    // a success is the validated message and its non-empty trimmed reply, persisted
    ensures out.reply.Replied? ==>
      var c := Validate(p, validId, s, caller, body);
      && c.Accepted?
      && out.reply.reply != "" && Trimmed(out.reply.reply)
      && out.store == Persist(s, c.chat, caller, c.message, out.reply.reply, userMsgId, botMsgId)
  {
    match Validate(p, validId, s, caller, body)
    case Refused(reply) => Outcome(s, reply)
    case Accepted(message, chat) =>
      Respond(s, chat, caller, message, call(RequestPayload(p, s, caller, message, chat)), userMsgId, botMsgId)
  }

  // ---------------------------------------------------------------------
  // properties

  /** A refused request never reaches the provider: its outcome is the same
      whatever the provider would have answered. */
  lemma RefusedBeforeProvider(p: Provider, validId: string -> bool, s: Store, caller: Oid, body: Json,
                              call1: Payload -> Upstream, call2: Payload -> Upstream, id1: Oid, id2: Oid)
    requires Validate(p, validId, s, caller, body).Refused?
    ensures Send(p, validId, s, caller, body, call1, id1, id2)
         == Send(p, validId, s, caller, body, call2, id1, id2)
         == Outcome(s, Validate(p, validId, s, caller, body).reply)
  {
  }

  /** A truthy `message` or `chatId` that `String` cannot convert throws
      inside the `try`: the `catch` finds no upstream status and answers
      502, and nothing is written. */
  lemma UnconvertibleFieldIs502(p: Provider, validId: string -> bool, s: Store, caller: Oid, body: Json,
                                call: Payload -> Upstream, id1: Oid, id2: Oid, key: string)
    requires p.apiKey != ""
    requires key == "message" || key == "chatId"
    requires Truthy(Field(body, key)) && StringThrows(Field(body, key))
    ensures Send(p, validId, s, caller, body, call, id1, id2) == Outcome(s, SendFailed(502, "AI request failed", None))
  {
  }

  /** An accepted request sends exactly one payload: the outcome depends on
      the provider only through its answer to `RequestPayload`. */
  lemma OnlyThePayloadIsSent(p: Provider, validId: string -> bool, s: Store, caller: Oid, body: Json,
                             call1: Payload -> Upstream, call2: Payload -> Upstream, id1: Oid, id2: Oid)
    requires Validate(p, validId, s, caller, body).Accepted?
    requires var c := Validate(p, validId, s, caller, body);
      call1(RequestPayload(p, s, caller, c.message, c.chat)) == call2(RequestPayload(p, s, caller, c.message, c.chat))
    ensures Send(p, validId, s, caller, body, call1, id1, id2)
         == Send(p, validId, s, caller, body, call2, id1, id2)
  {
  }

  /** The payload replays the caller's thread of the chat, oldest first:
      at most twelve turns between the system turn and the new message,
      the most recent ones. */
  lemma PayloadShape(p: Provider, s: Store, caller: Oid, message: string, chat: Chat)
    ensures var pl := RequestPayload(p, s, caller, message, chat);
      var history := ThreadByAge(s.messages, chat.id, caller);
      && pl.model == p.model
      && |pl.messages| == Min(HistoryLimit, |history|) + 2
      && pl.messages[0] == Turn(SystemRole, SystemInstruction)
      && pl.messages[|pl.messages| - 1] == Turn(UserRole, message)
      && forall i :: 1 <= i < |pl.messages| - 1 ==>
           exists m :: m in history && pl.messages[i] == ToTurn(m)
  {
    var pl := RequestPayload(p, s, caller, message, chat);
    var history := ThreadByAge(s.messages, chat.id, caller);
    var k := |pl.messages| - 2;
    forall i | 1 <= i < |pl.messages| - 1
      ensures exists m :: m in history && pl.messages[i] == ToTurn(m)
    {
      var m := history[|history| - k + i - 1];
      assert m in history;
    }
  }

  /** A rejected provider call answers 502 with the kind its status maps to:
      401 and 403 are auth failures, 429 is rate limiting, anything else
      (no status included) is a generic failure. */
  lemma ThrownStatusMapping(p: Provider, validId: string -> bool, s: Store, caller: Oid, body: Json,
                            call: Payload -> Upstream, id1: Oid, id2: Oid, status: Option<int>)
    requires Validate(p, validId, s, caller, body).Accepted?
    requires var c := Validate(p, validId, s, caller, body);
      call(RequestPayload(p, s, caller, c.message, c.chat)) == Threw(status)
    ensures var out := Send(p, validId, s, caller, body, call, id1, id2);
      && out.store == s
      && out.reply.SendFailed? && out.reply.status == 502
      && (status == Some(401) || status == Some(403) ==> out.reply.error == "AI auth failed (check API key)")
      && (status == Some(429) ==> out.reply.error == "AI rate limited (try again soon)")
      && (status != Some(401) && status != Some(403) && status != Some(429)
          ==> out.reply.error == "AI request failed")
  {
  }

  /** A provider error payload, or a response with no usable reply, is a
      502 that persists nothing. */
  lemma UnusableAnswerIs502(p: Provider, validId: string -> bool, s: Store, caller: Oid, body: Json,
                            call: Payload -> Upstream, id1: Oid, id2: Oid, data: Json)
    requires Validate(p, validId, s, caller, body).Accepted?
    requires var c := Validate(p, validId, s, caller, body);
      call(RequestPayload(p, s, caller, c.message, c.chat)) == Answered(data)
    requires Truthy(Field(data, "error")) || ExtractReply(data) == ""
    ensures var out := Send(p, validId, s, caller, body, call, id1, id2);
      && out.store == s
      && out.reply.SendFailed? && out.reply.status == 502
      && (Truthy(Field(data, "error"))
          ==> out.reply.error == "AI provider error" && out.reply.details == Some(ErrorDetails(Field(data, "error"))))
      && (!Truthy(Field(data, "error")) ==> out.reply.error == "AI returned empty response")
  {
  }

  /** A usable answer is always persisted and returned: no error payload
      and a non-empty extracted reply mean success with exactly that text. */
  lemma UsableAnswerSucceeds(p: Provider, validId: string -> bool, s: Store, caller: Oid, body: Json,
                             call: Payload -> Upstream, id1: Oid, id2: Oid, data: Json)
    requires Validate(p, validId, s, caller, body).Accepted?
    requires var c := Validate(p, validId, s, caller, body);
      call(RequestPayload(p, s, caller, c.message, c.chat)) == Answered(data)
    requires !Truthy(Field(data, "error")) && ExtractReply(data) != ""
    ensures Send(p, validId, s, caller, body, call, id1, id2).reply == Replied(ExtractReply(data))
  {
  }
}

=== FILE: auth_middleware.dfy ===
/**
 * `protect` (middleware/authMiddleware.js): admit a request only with an
 * `Authorization: Bearer <token>` header whose token verifies to the id of
 * an existing user. Every refusal is a 401.
 */
module AuthMiddleware {

  import opened Wrappers
  import opened JsString
  import opened Store
  import opened UserController

  /** `req.user`: the user record without its password. */
  datatype Principal = Principal(id: Oid, userId: string)

  /** `next()` with `req.user` set, or a 401 answer with its message. */
  datatype AuthOutcome = Authorized(user: Principal) | Unauthorized(message: string)

  /** `authHeader.split(" ")` and the check on its first two parts: the
      token is the second part, provided the first is exactly `Bearer` and
      the second is non-empty. */
  function BearerToken(header: string): (t: Option<string>)
    ensures t.Some? ==> t.value != "" && ' ' !in t.value
  {
    var parts := Split(header, ' ');
    if parts[0] != "Bearer" || |parts| < 2 || parts[1] == "" then None else Some(parts[1])
  }

  /** `User.findById(id).select("-password")`: the user record without its
      password hash. */
  function PrincipalOf(u: User): Principal {
    Principal(u.id, u.userId)
  }

  /** `protect`: header present and non-empty, well-formed bearer token,
      token verified, user found, in that order. */
  function Protect(jwt: Jwt, users: seq<User>, header: Option<string>): (o: AuthOutcome)
    ensures header.None? || header == Some("") ==> o == Unauthorized("Not authorized")
    ensures header.Some? && header != Some("") && BearerToken(header.value).None?
      ==> o == Unauthorized("Not authorized")
    ensures o.Authorized? <==>
      && header.Some? && BearerToken(header.value).Some?
      && jwt.verify(BearerToken(header.value).value).Some?
      && FindUser(users, ById(jwt.verify(BearerToken(header.value).value).value)).Some?
    ensures o.Authorized? ==>
      var id := jwt.verify(BearerToken(header.value).value).value;
      o.user.id == id && exists u :: u in users && u.id == id && o.user == PrincipalOf(u)
    ensures header.Some? && BearerToken(header.value).Some? && jwt.verify(BearerToken(header.value).value).None?
      ==> o == Unauthorized("Invalid token")
    ensures header.Some? && BearerToken(header.value).Some? && jwt.verify(BearerToken(header.value).value).Some?
            && FindUser(users, ById(jwt.verify(BearerToken(header.value).value).value)).None?
      ==> o == Unauthorized("User not found")
  {
    if header.None? || header.value == "" then Unauthorized("Not authorized")
    else match BearerToken(header.value)
      case None => Unauthorized("Not authorized")
      case Some(token) =>
        match jwt.verify(token)
        case None => Unauthorized("Invalid token")
        case Some(id) =>
          match FindUser(users, ById(id))
          case None => Unauthorized("User not found")
          case Some(u) => Authorized(PrincipalOf(u))
  }

  // ---------------------------------------------------------------------
  // properties

  /** The shape `BearerToken` accepts, stated without `split`: `Bearer`, one
      space, a non-empty space-free token, then the end of the header or a
      space. */
  lemma BearerTokenShape(header: string, t: string)
    ensures BearerToken(header) == Some(t) <==>
      && t != "" && ' ' !in t
      && (header == "Bearer " + t || "Bearer " + t + " " <= header)
  {
    if BearerToken(header) == Some(t) {
      BearerTokenForm(header);
    }
    if && t != "" && ' ' !in t && (header == "Bearer " + t || "Bearer " + t + " " <= header) {
      BearerTokenAccepts(header, t);
    }
  }

  /** An accepted header has the bearer shape around its token. */
  lemma BearerTokenForm(header: string)
    requires BearerToken(header).Some?
    ensures var t := BearerToken(header).value;
      header == "Bearer " + t || "Bearer " + t + " " <= header
  {
    var parts := Split(header, ' ');
    var t := parts[1];
    var more := parts[1..];
    JoinSplit(header, ' ');
    assert parts == [parts[0]] + more;
    JoinCons("Bearer", more, ' ');
    assert "Bearer" + [' '] == "Bearer ";
    if |more| > 1 {
      assert more == [t] + more[1..];
      JoinCons(t, more[1..], ' ');
      var rest := Join(more[1..], ' ');
      assert header == "Bearer " + (t + [' '] + rest);
      SpacedPrefix("Bearer ", t, rest);
    } else {
      assert header == "Bearer " + t;
    }
  }

  /** `x + t + " "` begins `x`, then `t`, a space and anything else. */
  lemma SpacedPrefix(x: string, t: string, rest: string)
    ensures x + t + " " <= x + (t + [' '] + rest)
  {
    var p := x + t + " ";
    assert x + (t + [' '] + rest) == p + rest;
  }

  /** The bearer shape around a non-empty space-free token is accepted. */
  lemma BearerTokenAccepts(header: string, t: string)
    requires t != "" && ' ' !in t
    requires header == "Bearer " + t || "Bearer " + t + " " <= header
    ensures BearerToken(header) == Some(t)
  {
    if header == "Bearer " + t {
      assert header == "Bearer" + [' '] + t;
      SplitCons("Bearer", t, ' ');
      SplitNone(t, ' ');
    } else {
      var p := "Bearer " + t + " ";
      var tail := header[|p|..];
      assert header == p + tail;
      var after := t + [' '] + tail;
      assert header == "Bearer" + [' '] + after;
      SplitCons("Bearer", after, ' ');
      SplitCons(t, tail, ' ');
    }
  }

  /** Parts after the token are ignored: appending more words to an
      accepted header does not change the token. */
  lemma ExtraPartsIgnored(header: string, extra: string)
    requires BearerToken(header).Some?
    ensures BearerToken(header + " " + extra) == BearerToken(header)
  {
    var t := BearerToken(header).value;
    BearerTokenShape(header, t);
    var h' := header + " " + extra;
    if header == "Bearer " + t {
      assert "Bearer " + t + " " <= h';
    } else {
      assert "Bearer " + t + " " <= header;
      assert h'[..|"Bearer " + t + " "|] == header[..|"Bearer " + t + " "|];
    }
    BearerTokenShape(h', t);
  }

  /** A lone `Bearer`, or `Bearer` followed by two spaces, is refused. */
  lemma MalformedHeadersRefused(jwt: Jwt, users: seq<User>, rest: string)
    ensures Protect(jwt, users, Some("Bearer")) == Unauthorized("Not authorized")
    ensures Protect(jwt, users, Some("Bearer  " + rest)) == Unauthorized("Not authorized")
  {
    SplitNone("Bearer", ' ');
    EmptyTokenRejected(rest);
  }

  /** After `Bearer` and one space, a second space leaves the token empty. */
  lemma EmptyTokenRejected(rest: string)
    ensures BearerToken("Bearer  " + rest).None?
  {
    var h := "Bearer  " + rest;
    assert h == "Bearer" + [' '] + ("" + [' '] + rest);
    SplitCons("Bearer", "" + [' '] + rest, ' ');
    SplitCons("", rest, ' ');
  }

  /** A token the server signed for an existing user admits the request as
      that user. */
  lemma SignedTokenAdmits(jwt: Jwt, users: seq<User>, u: User)
    requires Sound(jwt)
    requires FindUser(users, ById(u.id)) == Some(u)
    ensures Protect(jwt, users, Some("Bearer " + jwt.sign(u.id))) == Authorized(PrincipalOf(u))
  {
    var t := jwt.sign(u.id);
    BearerTokenShape("Bearer " + t, t);
  }

  /** End to end: register, log in with the same password, send the token
      back: the request is admitted as the new user. */
  lemma RegisterLoginProtect(b: Bcrypt, jwt: Jwt, users: seq<User>, userId: string, password: string,
                             salt: nat, freshId: Oid)
    requires Sound(jwt) && Accepts(b)
    requires FindUser(users, ByUserId(userId)).None?
    requires forall u :: u in users ==> u.id != freshId
    ensures var users' := Register(b, users, userId, password, salt, freshId).0;
      var reply := Login(b, jwt, users', userId, password);
      && reply.LoggedIn?
      && Protect(jwt, users', Some("Bearer " + reply.token)) == Authorized(Principal(freshId, userId))
  {
    var u := User(freshId, userId, b.hash(password, salt));
    var users' := Register(b, users, userId, password, salt, freshId).0;
    RegisterThenLogin(b, jwt, users, userId, password, password, salt, freshId);
    assert FindUser(users, ById(u.id)).None?;
    FindUserAppend(users, u, ById(u.id));
    SignedTokenAdmits(jwt, users', u);
  }
}

=== FILE: chat_routes.dfy ===
/**
 * The chat CRUD routes (routes/chatRoutes.js) as transitions of the store.
 * Each handler runs after authentication, for the caller's user id, and
 * every lookup is scoped to that id. `validId` is `mongoose.isValidObjectId`.
 */
module ChatRoutes {

  import opened Wrappers
  import opened JsString
  import opened JsValue
  import opened Sorting
  import opened Store

  /** The HTTP answers of the chat routes. */
  datatype ChatReply =
    | ChatList(chats: seq<Chat>)                                   // 200
    | ChatCreated(chat: Chat)                                      // 201
    | ChatWithMessages(id: Oid, title: string, messages: seq<Message>) // 200
    | ChatRenamed(chat: Chat)                                      // 200
    | ChatDeleted                                                  // 200, { success: true }
    | ChatError(status: nat, error: string)

  // ---------------------------------------------------------------------
  // GET /api/chats

  /** The caller's chats, most recently updated first. */
  function ListChats(s: Store, caller: Oid): (r: ChatReply)
    ensures r.ChatList?
    ensures multiset(r.chats) == multiset(ChatsOf(s.chats, caller))
    ensures forall c :: multiset(r.chats)[c] == (if c.user == caller then multiset(s.chats)[c] else 0)
    ensures forall c :: c in r.chats <==> c in s.chats && c.user == caller
    ensures forall i, j :: 0 <= i < j < |r.chats| ==> r.chats[i].updatedAt >= r.chats[j].updatedAt
  {
    ChatsOfCount(s.chats, caller);
    ChatList(ByRecency(ChatsOf(s.chats, caller)))
  }

  // ---------------------------------------------------------------------
  // POST /api/chats

  /** The title a new chat is created with: the trimmed `title` of the body
      when it is truthy, the schema default otherwise, and `None` when
      `String(title)` throws. */
  function CreateTitle(body: Json): (t: Option<string>)
    ensures t.None? <==> Truthy(Field(body, "title")) && StringThrows(Field(body, "title"))
    ensures !Truthy(Field(body, "title")) ==> t == Some(DefaultTitle)
    ensures Truthy(Field(body, "title")) && t.Some? ==>
      Trimmed(t.value) && t.value == Trim(ToJsString(Field(body, "title")).value)
  {
    TrimmedField(body, "title", DefaultTitle)
  }

  /** A new chat owned by the caller, stamped with the clock. `freshId` is
      the id the database assigns. A title `String` cannot convert is
      answered by the `catch`. */
  function CreateChat(s: Store, caller: Oid, body: Json, freshId: Oid): (out: Outcome<ChatReply>)
    ensures CreateTitle(body).None? ==> out == Outcome(s, ChatError(500, "Failed to create chat."))
    ensures CreateTitle(body).Some? ==> out.reply.ChatCreated?
    ensures out.reply.ChatCreated? ==> var c := out.reply.chat;
      && c.id == freshId && c.user == caller && Some(c.title) == CreateTitle(body)
      && c.createdAt == c.updatedAt == s.clock
      && out.store == Store(s.chats + [c], s.messages, s.clock + 1)
  {
    match CreateTitle(body)
    case None => Outcome(s, ChatError(500, "Failed to create chat."))
    case Some(title) =>
      var c := Chat(freshId, caller, title, s.clock, s.clock);
      Outcome(Store(s.chats + [c], s.messages, s.clock + 1), ChatCreated(c))
  }

  // ---------------------------------------------------------------------
  // GET /api/chats/:id

  /** The caller's chat with its thread, oldest message first. */
  function GetChat(validId: string -> bool, s: Store, caller: Oid, id: string): (r: ChatReply)
    ensures !validId(id) ==> r == ChatError(400, "Invalid chat id.")
    ensures validId(id) && OwnedChat(s.chats, id, caller).None? ==> r == ChatError(404, "Chat not found.")
    ensures r.ChatWithMessages? ==>
      && validId(id)
      && OwnedChat(s.chats, id, caller) == Some(Chat(r.id, caller, r.title,
           OwnedChat(s.chats, id, caller).value.createdAt, OwnedChat(s.chats, id, caller).value.updatedAt))
      && r.id == id
      && (forall m :: m in r.messages <==> m in s.messages && InThread(m, id, caller))
      && multiset(r.messages) == multiset(Thread(s.messages, id, caller))
      && (forall i, j :: 0 <= i < j < |r.messages| ==> r.messages[i].createdAt <= r.messages[j].createdAt)
    ensures validId(id) && OwnedChat(s.chats, id, caller).Some? ==> r.ChatWithMessages?
  {
    if !validId(id) then ChatError(400, "Invalid chat id.")
    else match OwnedChat(s.chats, id, caller)
      case None => ChatError(404, "Chat not found.")
      case Some(c) => ChatWithMessages(c.id, c.title, ThreadByAge(s.messages, c.id, caller))
  }

  // ---------------------------------------------------------------------
  // PUT /api/chats/:id

  /** The title a rename stores: the trimmed `title` of the body, or the
      default when it is missing, falsy or trims to nothing; `None` when
      `String(title)` throws. */
  function RenameTitle(body: Json): (t: Option<string>)
    ensures t.None? <==> Truthy(Field(body, "title")) && StringThrows(Field(body, "title"))
    ensures t.Some? ==> t.value != "" && Trimmed(t.value)
    ensures !Truthy(Field(body, "title")) ==> t == Some(DefaultTitle)
    ensures Truthy(Field(body, "title")) && t.Some? && Trim(ToJsString(Field(body, "title")).value) == ""
      ==> t == Some(DefaultTitle)
    ensures Truthy(Field(body, "title")) && t.Some? && Trim(ToJsString(Field(body, "title")).value) != ""
      ==> t == Some(Trim(ToJsString(Field(body, "title")).value))
  {
    match TrimmedField(body, "title", DefaultTitle)
    case None => None
    case Some(title) => if title == "" then Some(DefaultTitle) else Some(title)
  }

  /** Retitle the caller's chat. Mongoose's timestamps also stamp its
      `updatedAt` on this update. The title is computed before the lookup,
      so a title `String` cannot convert is a 500 whether or not the chat
      exists. */
  function RenameChat(validId: string -> bool, s: Store, caller: Oid, id: string, body: Json): (out: Outcome<ChatReply>)
    ensures !validId(id) ==> out == Outcome(s, ChatError(400, "Invalid chat id."))
    ensures validId(id) && RenameTitle(body).None? ==> out == Outcome(s, ChatError(500, "Failed to update title."))
    ensures validId(id) && RenameTitle(body).Some? && OwnedChat(s.chats, id, caller).None?
      ==> out == Outcome(s, ChatError(404, "Chat not found."))
    ensures out.reply.ChatRenamed? ==>
      && validId(id)
      && RenameTitle(body).Some?
      && FindOwned(s.chats, id, caller).Some?
      && var i := FindOwned(s.chats, id, caller).value;
      && out.reply.chat == s.chats[i].(title := RenameTitle(body).value, updatedAt := s.clock)
      && out.store == Store(s.chats[i := out.reply.chat], s.messages, s.clock + 1)
    ensures validId(id) && RenameTitle(body).Some? && OwnedChat(s.chats, id, caller).Some? ==> out.reply.ChatRenamed?
  {
    if !validId(id) then Outcome(s, ChatError(400, "Invalid chat id."))
    else match RenameTitle(body)
      case None => Outcome(s, ChatError(500, "Failed to update title."))
      case Some(title) =>
        match FindOwned(s.chats, id, caller)
        case None => Outcome(s, ChatError(404, "Chat not found."))
        case Some(i) =>
          var c := s.chats[i].(title := title, updatedAt := s.clock);
          Outcome(Store(s.chats[i := c], s.messages, s.clock + 1), ChatRenamed(c))
  }

  // ---------------------------------------------------------------------
  // DELETE /api/chats/:id

  /** Remove the caller's chat and, in cascade, the caller's messages in it. */
  function DeleteChat(validId: string -> bool, s: Store, caller: Oid, id: string): (out: Outcome<ChatReply>)
    ensures !validId(id) ==> out == Outcome(s, ChatError(400, "Invalid chat id."))
    ensures validId(id) && OwnedChat(s.chats, id, caller).None? ==> out == Outcome(s, ChatError(404, "Chat not found."))
    ensures out.reply.ChatDeleted? ==>
      && validId(id)
      && FindOwned(s.chats, id, caller).Some?
      && var i := FindOwned(s.chats, id, caller).value;
      && out.store.chats == s.chats[..i] + s.chats[i + 1..]
      && (forall m :: m in out.store.messages <==> m in s.messages && !InThread(m, id, caller))
      && multiset(out.store.messages) + multiset(Thread(s.messages, id, caller)) == multiset(s.messages)
      && out.store.clock == s.clock
    ensures validId(id) && OwnedChat(s.chats, id, caller).Some? ==> out.reply.ChatDeleted?
  {
    if !validId(id) then Outcome(s, ChatError(400, "Invalid chat id."))
    else match FindOwned(s.chats, id, caller)
      case None => Outcome(s, ChatError(404, "Chat not found."))
      case Some(i) =>
        var c := s.chats[i];
        Outcome(Store(s.chats[..i] + s.chats[i + 1..], DropThread(s.messages, c.id, caller), s.clock), ChatDeleted)
  }
}

=== FILE: js_string.dfy ===
/**
 * The two JavaScript string primitives the server relies on:
 * `String.prototype.trim` (request text, titles and provider replies) and
 * `String.prototype.split` with a one-character separator (the
 * `Authorization` header).
 */
module JsString {

  /** The code points `trim` strips: ECMAScript WhiteSpace (TAB, VT, FF, SP,
      NBSP, ZWNBSP and the Zs category) and LineTerminator (LF, CR, LS, PS). */
  predicate IsJsSpace(c: char) {
    var n := c as int;
    || n == 0x09 || n == 0x0A || n == 0x0B || n == 0x0C || n == 0x0D
    || n == 0x20 || n == 0xA0 || n == 0x1680
    || (0x2000 <= n <= 0x200A)
    || n == 0x2028 || n == 0x2029 || n == 0x202F || n == 0x205F
    || n == 0x3000 || n == 0xFEFF
  }

  predicate AllSpace(s: string) {
    forall i :: 0 <= i < |s| ==> IsJsSpace(s[i])
  }

  /** Neither end of `s` is white space. */
  predicate Trimmed(s: string) {
    s == [] || (!IsJsSpace(s[0]) && !IsJsSpace(s[|s| - 1]))
  }

  /** `s` is `r` with `lead` white-space characters before it and only
      white space after it. */
  predicate PaddedBy(s: string, lead: int, r: string) {
    && 0 <= lead && lead + |r| <= |s|
    && s[lead..lead + |r|] == r
    && AllSpace(s[..lead])
    && AllSpace(s[lead + |r|..])
  }

  /** `s` without its leading white space: the longest suffix that does not
      start with white space, everything before it being white space. */
  function TrimStart(s: string): (r: string)
    ensures |r| <= |s| && r == s[|s| - |r|..]
    ensures AllSpace(s[..|s| - |r|])
    ensures r == [] || !IsJsSpace(r[0])
  {
    if s != [] && IsJsSpace(s[0]) then
      var r := TrimStart(s[1..]);
      assert s[..|s| - |r|] == [s[0]] + s[1..][..|s| - 1 - |r|];
      r
    else
      s
  }

  /** `s` without its trailing white space. */
  function TrimEnd(s: string): (r: string)
    ensures |r| <= |s| && r == s[..|r|]
    ensures AllSpace(s[|r|..])
    ensures r == [] || !IsJsSpace(r[|r| - 1])
  {
    if s != [] && IsJsSpace(s[|s| - 1]) then
      var r := TrimEnd(s[..|s| - 1]);
      assert s[|r|..] == s[..|s| - 1][|r|..] + [s[|s| - 1]];
      r
    else
      s
  }

  /** JavaScript `s.trim()`: `s` splits as lead + r + trail, the outer parts
      white space and r trimmed. */
  function Trim(s: string): (r: string)
    ensures Trimmed(r)
    ensures |r| <= |s|
    ensures PaddedBy(s, |s| - |TrimStart(s)|, r)
  {
    var t := TrimStart(s);
    var r := TrimEnd(t);
    TrimParts(s, t, r);
    r
  }

  /** The two halves of `trim` compose: stripping the front and then the back
      leaves a trimmed middle between two runs of white space. */
  lemma TrimParts(s: string, t: string, r: string)
    requires |t| <= |s| && t == s[|s| - |t|..] && (t == [] || !IsJsSpace(t[0]))
    requires |r| <= |t| && r == t[..|r|] && AllSpace(t[|r|..]) && (r == [] || !IsJsSpace(r[|r| - 1]))
    requires AllSpace(s[..|s| - |t|])
    ensures Trimmed(r)
    ensures PaddedBy(s, |s| - |t|, r)
  {
    assert r != [] ==> r[0] == t[0];
    var lead := |s| - |t|;
    forall k | 0 <= k < |r|
      ensures s[lead + k] == r[k]
    {
      assert r[k] == t[k];
      assert t[k] == s[lead + k];
    }
    assert s[lead..lead + |r|] == r;
    forall k | 0 <= k < |s| - lead - |r|
      ensures s[lead + |r|..][k] == t[|r|..][k]
    {
      assert t[|r| + k] == s[lead + |r| + k];
    }
    assert s[lead + |r|..] == t[|r|..];
  }

  lemma {:induction false} TrimStartOfPadded(a: string, r: string)
    requires AllSpace(a)
    requires r == [] || !IsJsSpace(r[0])
    ensures TrimStart(a + r) == r
    decreases |a|
  {
    if a != [] {
      assert (a + r)[1..] == a[1..] + r;
      TrimStartOfPadded(a[1..], r);
    }
  }

  lemma {:induction false} TrimEndOfPadded(r: string, b: string)
    requires AllSpace(b)
    requires r == [] || !IsJsSpace(r[|r| - 1])
    ensures TrimEnd(r + b) == r
    decreases |b|
  {
    if b != [] {
      assert (r + b)[..|r + b| - 1] == r + b[..|b| - 1];
      TrimEndOfPadded(r, b[..|b| - 1]);
    }
  }

  /** `trim` is determined by its result alone: wrapping trimmed text in
      white space on either side and trimming gives the text back. */
  lemma TrimOfPadded(a: string, r: string, b: string)
    requires AllSpace(a) && AllSpace(b) && Trimmed(r)
    ensures Trim(a + r + b) == r
  {
    if r == [] {
      assert AllSpace(a + r + b);
      assert TrimStart(a + r + b) == [];
    } else {
      assert a + r + b == a + (r + b);
      TrimStartOfPadded(a, r + b);
      TrimEndOfPadded(r, b);
    }
  }

  /** Text with no white space at either end is its own `trim`. */
  lemma TrimOfTrimmed(r: string)
    requires Trimmed(r)
    ensures Trim(r) == r
  {
    assert [] + r + [] == r;
    TrimOfPadded([], r, []);
  }

  /** Trimming twice is trimming once. */
  lemma TrimIdempotent(s: string)
    ensures Trim(Trim(s)) == Trim(s)
  {
    TrimOfTrimmed(Trim(s));
  }

  /** The trimmed text is empty exactly when the input is all white space. */
  lemma TrimEmptyIffAllSpace(s: string)
    ensures Trim(s) == [] <==> AllSpace(s)
  {
    if AllSpace(s) {
      assert [] + [] + s == s;
      TrimOfPadded([], [], s);
    }
  }

  // ---------------------------------------------------------------------
  // split

  /** Position of the first `c` in `s`, or `|s|` when there is none. */
  function IndexOf(s: string, c: char): (i: nat)
    ensures i <= |s|
    ensures i < |s| ==> s[i] == c
    ensures c !in s[..i]
  {
    if s == [] then 0
    else if s[0] == c then 0
    else
      var i := 1 + IndexOf(s[1..], c);
      assert s[..i] == [s[0]] + s[1..][..i - 1];
      i
  }

  /** JavaScript `s.split(sep)` for a one-character separator: the maximal
      separator-free pieces between occurrences of `sep`, at least one. */
  function Split(s: string, sep: char): (parts: seq<string>)
    ensures |parts| >= 1
    ensures forall k :: 0 <= k < |parts| ==> sep !in parts[k]
    decreases |s|
  {
    var i := IndexOf(s, sep);
    if i == |s| then [s] else [s[..i]] + Split(s[i + 1..], sep)
  }

  /** JavaScript `parts.join(sep)` on a non-empty array. */
  function Join(parts: seq<string>, sep: char): string
    requires |parts| >= 1
  {
    if |parts| == 1 then parts[0] else parts[0] + [sep] + Join(parts[1..], sep)
  }

  /** Splitting loses nothing: joining the pieces restores the string. */
  lemma {:induction false} JoinSplit(s: string, sep: char)
    ensures Join(Split(s, sep), sep) == s
    decreases |s|
  {
    var i := IndexOf(s, sep);
    if i < |s| {
      var a, b := s[..i], s[i + 1..];
      assert s == a + [sep] + b;
      JoinSplit(b, sep);
      SplitCons(a, b, sep);
      JoinCons(a, Split(b, sep), sep);
    }
  }

  lemma JoinCons(a: string, rest: seq<string>, sep: char)
    requires |rest| >= 1
    ensures Join([a] + rest, sep) == a + [sep] + Join(rest, sep)
  {
    assert ([a] + rest)[1..] == rest;
  }

  lemma {:induction false} IndexOfPrefix(a: string, x: string, c: char)
    requires c !in a
    requires x == [] || x[0] == c
    ensures IndexOf(a + x, c) == |a|
    decreases |a|
  {
    if a != [] {
      assert (a + x)[1..] == a[1..] + x;
      IndexOfPrefix(a[1..], x, c);
    }
  }

  /** A string whose first separator follows `a` splits into `a` and the
      pieces of the rest. */
  lemma SplitCons(a: string, b: string, sep: char)
    requires sep !in a
    ensures Split(a + [sep] + b, sep) == [a] + Split(b, sep)
  {
    var s := a + [sep] + b;
    IndexOfPrefix(a, [sep] + b, sep);
    assert s == a + ([sep] + b);
    assert s[..|a|] == a && s[|a| + 1..] == b;
  }

  lemma SplitNone(a: string, sep: char)
    requires sep !in a
    ensures Split(a, sep) == [a]
  {
    assert a + [] == a;
    IndexOfPrefix(a, [], sep);
  }

  /** Joining separator-free pieces and splitting again gives the pieces. */
  lemma {:induction false} SplitJoin(parts: seq<string>, sep: char)
    requires |parts| >= 1
    requires forall k :: 0 <= k < |parts| ==> sep !in parts[k]
    ensures Split(Join(parts, sep), sep) == parts
    decreases |parts|
  {
    if |parts| == 1 {
      SplitNone(parts[0], sep);
    } else {
      SplitJoin(parts[1..], sep);
      SplitCons(parts[0], Join(parts[1..], sep), sep);
    }
  }
}

=== FILE: js_value.dfy ===
/**
 * A JSON-like JavaScript value: what arrives in a request body and what the
 * completion provider answers. Numbers are integers here (floating point
 * is not modelled).
 */
module JsValue {

  import opened Wrappers
  import opened JsString

  datatype Json =
    | Undefined
    | Null
    | Bool(b: bool)
    | Num(n: int)
    | Str(s: string)
    | Arr(items: seq<Json>)
    | Obj(fields: map<string, Json>)

  /** JavaScript truthiness: `undefined`, `null`, `false`, `0` and `""` are
      falsy; every array and object, even an empty one, is truthy. */
  predicate Truthy(v: Json) {
    match v
    case Undefined => false
    case Null => false
    case Bool(b) => b
    case Num(n) => n != 0
    case Str(s) => s != ""
    case Arr(_) => true
    case Obj(_) => true
  }

  /** Property access `v.key` (and `v?.key`) for the data keys used by the
      server: an own field of an object, `undefined` otherwise. */
  function Field(v: Json, key: string): (r: Json)
    ensures r != Undefined ==> v.Obj? && key in v.fields && r == v.fields[key]
    ensures v.Obj? && key in v.fields ==> r == v.fields[key]
  {
    if v.Obj? && key in v.fields then v.fields[key] else Undefined
  }

  /** `a[0]` when `a` is an array: its first element, `undefined` if empty. */
  function Head(items: seq<Json>): Json {
    if items == [] then Undefined else items[0]
  }

  /** The number a string of decimal digits denotes, most significant
      first. */
  function DigitsValue(s: string): int {
    if s == [] then 0 else DigitsValue(s[..|s| - 1]) * 10 + (s[|s| - 1] as int - '0' as int)
  }

  /** A canonical decimal numeral: digits only, no leading zero. */
  predicate Canonical(s: string) {
    && s != []
    && (forall i :: 0 <= i < |s| ==> '0' <= s[i] <= '9')
    && (s[0] == '0' ==> |s| == 1)
  }

  /** The decimal digits of `n`, most significant first. */
  function DecimalNat(n: nat): (r: string)
    ensures r != []
    ensures forall i :: 0 <= i < |r| ==> '0' <= r[i] <= '9'
  {
    var d := ['0' + (n % 10) as char];
    if n < 10 then d else DecimalNat(n / 10) + d
  }

  /** How JavaScript prints an integer: its digits, after a minus sign when
      negative. */
  function DecimalInt(n: int): (r: string)
    ensures r != []
  {
    if n < 0 then "-" + DecimalNat(-n) else DecimalNat(n)
  }

  /** The digits of `n` are its canonical numeral: they denote `n` and
      start with `0` only for zero itself. */
  lemma {:induction false} DecimalNatDenotes(n: nat)
    ensures Canonical(DecimalNat(n)) && DigitsValue(DecimalNat(n)) == n
    decreases n
  {
    if n >= 10 {
      DecimalNatDenotes(n / 10);
      var r := DecimalNat(n);
      assert r[..|r| - 1] == DecimalNat(n / 10);
    }
  }

  /** Whether JavaScript `String(v)` throws a TypeError. A JSON value is
      never a function, so an object with an own `toString` key has no
      callable `toString`; the inherited `valueOf` returns the object itself,
      and no primitive is found. An array throws when joining one of its
      elements does. Every other value converts. */
  predicate StringThrows(v: Json)
    decreases v
  {
    match v
    case Obj(fields) => "toString" in fields
    case Arr(items) => exists i :: 0 <= i < |items| && StringThrows(items[i])
    case _ => false
  }

  /** JavaScript `String(v)`, `None` when it throws. Arrays join their
      elements with commas. */
  function ToJsString(v: Json): (r: Option<string>)
    ensures r.None? <==> StringThrows(v)
    ensures v.Str? ==> r == Some(v.s)
    ensures v.Obj? && "toString" !in v.fields ==> r == Some("[object Object]")
    ensures v.Bool? ==> r == Some(if v.b then "true" else "false")
    ensures v.Num? ==> r.Some? && r.value != [] && (v.n >= 0 ==> forall i :: 0 <= i < |r.value| ==> '0' <= r.value[i] <= '9')
    ensures v.Arr? && v.items == [] ==> r == Some("")
    decreases v, 0
  {
    match v
    case Undefined => Some("undefined")
    case Null => Some("null")
    case Bool(b) => Some(if b then "true" else "false")
    case Num(n) => Some(DecimalInt(n))
    case Str(s) => Some(s)
    case Arr(items) =>
      (match ItemTexts(items)
       case None => None
       case Some(texts) => if texts == [] then Some("") else Some(Join(texts, ',')))
    case Obj(fields) => if "toString" in fields then None else Some("[object Object]")
  }

  /** How `join` writes one element: `null` and `undefined` as the empty
      string, anything else as `String(v)`. */
  function ElementText(v: Json): (r: Option<string>)
    ensures r.None? <==> StringThrows(v)
    ensures v.Null? || v.Undefined? ==> r == Some("")
    ensures !(v.Null? || v.Undefined?) ==> r == ToJsString(v)
    decreases v, 1
  {
    if v.Null? || v.Undefined? then Some("") else ToJsString(v)
  }

  /** The texts `join` puts between its commas, one per element, `None` when
      one of them throws. */
  function ItemTexts(items: seq<Json>): (r: Option<seq<string>>)
    ensures r.None? <==> exists i :: 0 <= i < |items| && StringThrows(items[i])
    ensures r.Some? ==> |r.value| == |items| && forall i :: 0 <= i < |items| ==> Some(r.value[i]) == ElementText(items[i])
    decreases items, 0
  {
    if items == [] then Some([])
    else
      assert forall i :: 1 <= i < |items| ==> items[i] == items[1..][i - 1];
      match (ElementText(items[0]), ItemTexts(items[1..]))
      case (Some(first), Some(rest)) => Some([first] + rest)
      case _ => None
  }

  /** A request-body field read as `body.key ? String(body.key).trim() : fallback`:
      the fallback when the field is falsy, its trimmed text otherwise, and
      `None` when `String` throws. */
  function TrimmedField(body: Json, key: string, fallback: string): (r: Option<string>)
    ensures !Truthy(Field(body, key)) ==> r == Some(fallback)
    ensures r.None? <==> Truthy(Field(body, key)) && StringThrows(Field(body, key))
    ensures Truthy(Field(body, key)) && r.Some? ==>
      && ToJsString(Field(body, key)).Some?
      && Trimmed(r.value)
      && r.value == Trim(ToJsString(Field(body, key)).value)
    ensures Field(body, key).Str? && Truthy(Field(body, key)) ==> r == Some(Trim(Field(body, key).s))
  {
    var v := Field(body, key);
    if !Truthy(v) then Some(fallback)
    else match ToJsString(v)
      case None => None
      case Some(text) => Some(Trim(text))
  }

  /** An array's `String` is its elements' texts joined with commas: each
      `null` or `undefined` element as the empty string, each other element
      as its own `String`. */
  lemma ArrayText(items: seq<Json>)
    requires items != [] && !StringThrows(Arr(items))
    ensures ItemTexts(items).Some?
    ensures ToJsString(Arr(items)) == Some(Join(ItemTexts(items).value, ','))
  {
  }

  /** `String(n)` for an integer `n` is its canonical numeral, after a minus
      sign when `n` is negative: the text denotes `n` and nothing else. */
  lemma NumberText(n: int)
    ensures ToJsString(Num(n)).Some?
    ensures var text := ToJsString(Num(n)).value;
      n >= 0 ==> Canonical(text) && DigitsValue(text) == n
    ensures var text := ToJsString(Num(n)).value;
      n < 0 ==> |text| >= 2 && text[0] == '-' && Canonical(text[1..]) && DigitsValue(text[1..]) == -n
  {
    if n < 0 {
      DecimalNatDenotes(-n);
      assert ToJsString(Num(n)).value[1..] == DecimalNat(-n);
    } else {
      DecimalNatDenotes(n);
    }
  }
}

=== FILE: ownership.dfy ===
/**
 * Properties that cut across the routes: every handler keeps the store
 * invariant, never touches another user's chats or messages, and answers
 * the caller from the caller's own records only; deleting cascades; a
 * successful exchange lands at the top of the owner's list and at the end
 * of the chat's thread.
 */
module Ownership {

  import opened Wrappers
  import opened JsString
  import opened JsValue
  import opened Sorting
  import opened Store
  import opened Prompt
  import opened AiRoute
  import opened ChatRoutes

  /** What user `u` owns in the store: their chats and their messages. */
  function View(s: Store, u: Oid): (seq<Chat>, seq<Message>) {
    (ChatsOf(s.chats, u), MessagesOf(s.messages, u))
  }

  /** `chats'` differs from `chats` at most in titles and timestamps. */
  predicate SameKeys(chats: seq<Chat>, chats': seq<Chat>) {
    |chats'| == |chats| && forall k :: 0 <= k < |chats| ==> chats'[k].id == chats[k].id && chats'[k].user == chats[k].user
  }

  /** Messages keep their owning chat when the chats keep their keys. */
  lemma OwnersSurvive(chats: seq<Chat>, chats': seq<Chat>, msgs: seq<Message>)
    requires SameKeys(chats, chats')
    requires forall m :: m in msgs ==> exists c :: c in chats && Owns(c, m)
    ensures forall m :: m in msgs ==> exists c :: c in chats' && Owns(c, m)
  {
    forall m | m in msgs
      ensures exists c :: c in chats' && Owns(c, m)
    {
      var c :| c in chats && Owns(c, m);
      var k :| 0 <= k < |chats| && chats[k] == c;
      assert chats'[k] in chats' && Owns(chats'[k], m);
    }
  }

  // ---------------------------------------------------------------------
  // the invariant

  lemma CreateKeepsValid(s: Store, caller: Oid, body: Json, freshId: Oid)
    requires Valid(s) && FreshChatId(s, freshId)
    ensures Valid(CreateChat(s, caller, body, freshId).store)
  {
    var s' := CreateChat(s, caller, body, freshId).store;
    assert forall k :: 0 <= k < |s.chats| ==> s'.chats[k] == s.chats[k] && s.chats[k] in s.chats;
    forall m | m in s'.messages
      ensures exists c :: c in s'.chats && Owns(c, m)
    {
      var c :| c in s.chats && Owns(c, m);
      assert c in s'.chats;
    }
  }

  lemma RenameKeepsValid(validId: string -> bool, s: Store, caller: Oid, id: string, body: Json)
    requires Valid(s)
    ensures Valid(RenameChat(validId, s, caller, id, body).store)
  {
    var out := RenameChat(validId, s, caller, id, body);
    if out.reply.ChatRenamed? {
      var i := FindOwned(s.chats, id, caller).value;
      assert SameKeys(s.chats, out.store.chats);
      OwnersSurvive(s.chats, out.store.chats, s.messages);
      forall c | c in out.store.chats
        ensures c.createdAt <= c.updatedAt < out.store.clock
      {
        var k :| 0 <= k < |out.store.chats| && out.store.chats[k] == c;
        assert s.chats[k] in s.chats;
      }
    }
  }

  lemma DeleteKeepsValid(validId: string -> bool, s: Store, caller: Oid, id: string)
    requires Valid(s)
    ensures Valid(DeleteChat(validId, s, caller, id).store)
  {
    var out := DeleteChat(validId, s, caller, id);
    if out.reply.ChatDeleted? {
      var i := FindOwned(s.chats, id, caller).value;
      var chats' := out.store.chats;
      var msgs' := out.store.messages;
      assert chats' == s.chats[..i] + s.chats[i + 1..];
      RemoveKeepsChatIdsUnique(s.chats, i);
      assert out.store.messages == DropThread(s.messages, id, caller);
      DropThreadKeepsUnique(s.messages, id, caller);
      RemoveKeepsOwners(s.chats, i, s.messages, msgs');
      assert forall c :: c in chats' ==> c in s.chats;
      forall m | m in msgs' && m.pairId.Some?
        ensures exists u :: u in msgs' && Answers(m, u)
      {
        var u :| u in s.messages && Answers(m, u);
        assert u in msgs';
      }
    }
  }

  /** Removing one chat keeps chat ids unique. */
  lemma RemoveKeepsChatIdsUnique(chats: seq<Chat>, i: nat)
    requires i < |chats| && ChatIdsUnique(chats)
    ensures ChatIdsUnique(chats[..i] + chats[i + 1..])
  {
    var r := chats[..i] + chats[i + 1..];
    forall a, b | 0 <= a < b < |r|
      ensures r[a].id != r[b].id
    {
      var a0 := if a < i then a else a + 1;
      var b0 := if b < i then b else b + 1;
      assert r[a] == chats[a0] && r[b] == chats[b0];
    }
  }

  /** Removing chat `i` keeps an owner for every message outside its
      thread. */
  lemma RemoveKeepsOwners(chats: seq<Chat>, i: nat, msgs: seq<Message>, msgs': seq<Message>)
    requires i < |chats|
    requires forall m :: m in msgs ==> exists c :: c in chats && Owns(c, m)
    requires forall m :: m in msgs' ==> m in msgs && !InThread(m, chats[i].id, chats[i].user)
    ensures forall m :: m in msgs' ==> exists c :: c in chats[..i] + chats[i + 1..] && Owns(c, m)
  {
    var r := chats[..i] + chats[i + 1..];
    forall m | m in msgs'
      ensures exists c :: c in r && Owns(c, m)
    {
      var c :| c in chats && Owns(c, m);
      var k :| 0 <= k < |chats| && chats[k] == c;
      if k < i {
        assert r[k] == c;
      } else if k > i {
        assert r[k - 1] == c;
      }
    }
  }

  lemma {:induction false} DropThreadKeepsUnique(msgs: seq<Message>, chatId: Oid, u: Oid)
    requires MessageIdsUnique(msgs)
    ensures MessageIdsUnique(DropThread(msgs, chatId, u))
    decreases |msgs|
  {
    if msgs != [] {
      var tail := msgs[1..];
      assert MessageIdsUnique(tail) by {
        assert forall a, b :: 0 <= a < b < |tail| ==> tail[a] == msgs[a + 1] && tail[b] == msgs[b + 1];
      }
      DropThreadKeepsUnique(tail, chatId, u);
      var rest := DropThread(tail, chatId, u);
      if !InThread(msgs[0], chatId, u) {
        forall m | m in rest
          ensures m.id != msgs[0].id
        {
          var k :| 0 <= k < |tail| && tail[k] == m;
          assert msgs[k + 1] == m;
        }
        ConsKeepsUnique(msgs[0], rest);
      }
    }
  }

  /** A message whose id no later message has can head a list of unique
      ids. */
  lemma ConsKeepsUnique(h: Message, rest: seq<Message>)
    requires MessageIdsUnique(rest)
    requires forall m :: m in rest ==> m.id != h.id
    ensures MessageIdsUnique([h] + rest)
  {
    var r := [h] + rest;
    forall a, b | 0 <= a < b < |r|
      ensures r[a].id != r[b].id
    {
      assert r[b] == rest[b - 1];
      if a > 0 {
        assert r[a] == rest[a - 1];
      }
    }
  }

  /** The persisting step keeps the invariant when the chat is the
      caller's and the two message ids are new and distinct. */
  lemma PersistKeepsValid(s: Store, chat: Chat, caller: Oid, message: string, reply: string,
                          userMsgId: Oid, botMsgId: Oid)
    requires Valid(s)
    requires chat in s.chats && chat.user == caller
    requires FreshMessageId(s, userMsgId) && FreshMessageId(s, botMsgId) && userMsgId != botMsgId
    ensures Valid(Persist(s, chat, caller, message, reply, userMsgId, botMsgId))
  {
    PersistKeepsIdsUnique(s, chat, caller, message, reply, userMsgId, botMsgId);
    PersistKeepsOwners(s, chat, caller, message, reply, userMsgId, botMsgId);
    PersistKeepsPairs(s, chat, caller, message, reply, userMsgId, botMsgId);
    PersistKeepsStamps(s, chat, caller, message, reply, userMsgId, botMsgId);
  }

  lemma PersistKeepsIdsUnique(s: Store, chat: Chat, caller: Oid, message: string, reply: string,
                              userMsgId: Oid, botMsgId: Oid)
    requires ChatIdsUnique(s.chats) && MessageIdsUnique(s.messages)
    requires FreshMessageId(s, userMsgId) && FreshMessageId(s, botMsgId) && userMsgId != botMsgId
    ensures var s' := Persist(s, chat, caller, message, reply, userMsgId, botMsgId);
      ChatIdsUnique(s'.chats) && MessageIdsUnique(s'.messages)
  {
    var s' := Persist(s, chat, caller, message, reply, userMsgId, botMsgId);
    var n := |s.messages|;
    assert SameKeys(s.chats, s'.chats);
    forall a, b | 0 <= a < b < |s'.messages|
      ensures s'.messages[a].id != s'.messages[b].id
    {
      if b >= n && a < n {
        assert s'.messages[a] == s.messages[a];
        assert s.messages[a] in s.messages;
      }
    }
  }

  lemma PersistKeepsOwners(s: Store, chat: Chat, caller: Oid, message: string, reply: string,
                           userMsgId: Oid, botMsgId: Oid)
    requires EveryMessageOwned(s)
    requires chat in s.chats && chat.user == caller
    ensures EveryMessageOwned(Persist(s, chat, caller, message, reply, userMsgId, botMsgId))
  {
    var s' := Persist(s, chat, caller, message, reply, userMsgId, botMsgId);
    var n := |s.messages|;
    assert s'.messages == s.messages + [s'.messages[n], s'.messages[n + 1]];
    assert SameKeys(s.chats, s'.chats);
    OwnersSurvive(s.chats, s'.chats, s.messages);
    var k :| 0 <= k < |s.chats| && s.chats[k] == chat;
    assert s'.chats[k] in s'.chats;
    assert Owns(s'.chats[k], s'.messages[n]) && Owns(s'.chats[k], s'.messages[n + 1]);
  }

  lemma PersistKeepsPairs(s: Store, chat: Chat, caller: Oid, message: string, reply: string,
                          userMsgId: Oid, botMsgId: Oid)
    requires EveryPairResolves(s)
    ensures EveryPairResolves(Persist(s, chat, caller, message, reply, userMsgId, botMsgId))
  {
    var s' := Persist(s, chat, caller, message, reply, userMsgId, botMsgId);
    var n := |s.messages|;
    var um := s'.messages[n];
    var bm := s'.messages[n + 1];
    assert s'.messages == s.messages + [um, bm];
    forall m | m in s'.messages && m.pairId.Some?
      ensures exists u :: u in s'.messages && Answers(m, u)
    {
      if m == bm {
        assert Answers(m, um);
      } else {
        assert m in s.messages;
        var u :| u in s.messages && Answers(m, u);
        assert u in s'.messages;
      }
    }
  }

  lemma PersistKeepsStamps(s: Store, chat: Chat, caller: Oid, message: string, reply: string,
                           userMsgId: Oid, botMsgId: Oid)
    requires StampsBefore(s)
    ensures StampsBefore(Persist(s, chat, caller, message, reply, userMsgId, botMsgId))
  {
    var s' := Persist(s, chat, caller, message, reply, userMsgId, botMsgId);
    var n := |s.messages|;
    forall c | c in s'.chats
      ensures c.createdAt <= c.updatedAt < s'.clock
    {
      var j :| 0 <= j < |s'.chats| && s'.chats[j] == c;
      assert s.chats[j] in s.chats;
    }
    forall m | m in s'.messages
      ensures m.createdAt < s'.clock
    {
      var j :| 0 <= j < |s'.messages| && s'.messages[j] == m;
      if j < n {
        assert s.messages[j] in s.messages;
      }
    }
  }

  /** Sending a message keeps the invariant, given fresh message ids. */
  lemma SendKeepsValid(p: Provider, validId: string -> bool, s: Store, caller: Oid, body: Json,
                       call: Payload -> Upstream, userMsgId: Oid, botMsgId: Oid)
    requires Valid(s)
    requires FreshMessageId(s, userMsgId) && FreshMessageId(s, botMsgId) && userMsgId != botMsgId
    ensures Valid(Send(p, validId, s, caller, body, call, userMsgId, botMsgId).store)
  {
    var out := Send(p, validId, s, caller, body, call, userMsgId, botMsgId);
    if out.reply.Replied? {
      var c := Validate(p, validId, s, caller, body);
      PersistKeepsValid(s, c.chat, caller, c.message, out.reply.reply, userMsgId, botMsgId);
    }
  }

  // ---------------------------------------------------------------------
  // isolation: writes by one user leave every other user's records alone

  lemma CreateIsolated(s: Store, caller: Oid, body: Json, freshId: Oid, other: Oid)
    requires other != caller
    ensures View(CreateChat(s, caller, body, freshId).store, other) == View(s, other)
  {
    var out := CreateChat(s, caller, body, freshId);
    if out.reply.ChatCreated? {
      var c := out.reply.chat;
      ChatsOfAppend(s.chats, [c], other);
      assert [c][1..] == [];
      assert ChatsOf([c], other) == [];
      assert ChatsOf(s.chats, other) + [] == ChatsOf(s.chats, other);
    }
  }

  lemma RenameIsolated(validId: string -> bool, s: Store, caller: Oid, id: string, body: Json, other: Oid)
    requires other != caller
    ensures View(RenameChat(validId, s, caller, id, body).store, other) == View(s, other)
  {
    var out := RenameChat(validId, s, caller, id, body);
    if out.reply.ChatRenamed? {
      var i := FindOwned(s.chats, id, caller).value;
      ChatsOfUpdate(s.chats, i, out.reply.chat, other);
    }
  }

  lemma DeleteIsolated(validId: string -> bool, s: Store, caller: Oid, id: string, other: Oid)
    requires other != caller
    ensures View(DeleteChat(validId, s, caller, id).store, other) == View(s, other)
  {
    var out := DeleteChat(validId, s, caller, id);
    if out.reply.ChatDeleted? {
      var i := FindOwned(s.chats, id, caller).value;
      ChatsOfRemove(s.chats, i, other);
      MessagesOfDropThread(s.messages, s.chats[i].id, caller, other);
    }
  }

  /** The timestamp bump of a send is not scoped by owner
      (`Chat.updateOne({ _id: chatId }, …)`); isolation rests on chat ids
      being unique. */
  lemma PersistIsolated(s: Store, chat: Chat, caller: Oid, message: string, reply: string,
                        userMsgId: Oid, botMsgId: Oid, other: Oid)
    requires ChatIdsUnique(s.chats)
    requires chat in s.chats && chat.user == caller && other != caller
    ensures View(Persist(s, chat, caller, message, reply, userMsgId, botMsgId), other) == View(s, other)
  {
    var s' := Persist(s, chat, caller, message, reply, userMsgId, botMsgId);
    var n := |s.messages|;
    var k :| 0 <= k < |s.chats| && s.chats[k] == chat;
    var i := FindById(s.chats, chat.id).value;
    assert i == k;
    var bumped := s.chats[i].(updatedAt := s.clock + 2);
    assert s'.chats == s.chats[i := bumped];
    ChatsOfUpdate(s.chats, i, bumped, other);
    var added := [s'.messages[n], s'.messages[n + 1]];
    assert s'.messages == s.messages + added;
    MessagesOfAppend(s.messages, added, other);
    assert added[1..][1..] == [];
    assert MessagesOf(added, other) == [];
    assert MessagesOf(s.messages, other) + [] == MessagesOf(s.messages, other);
  }

  lemma SendIsolated(p: Provider, validId: string -> bool, s: Store, caller: Oid, body: Json,
                     call: Payload -> Upstream, userMsgId: Oid, botMsgId: Oid, other: Oid)
    requires ChatIdsUnique(s.chats)
    requires other != caller
    ensures View(Send(p, validId, s, caller, body, call, userMsgId, botMsgId).store, other) == View(s, other)
  {
    var out := Send(p, validId, s, caller, body, call, userMsgId, botMsgId);
    if out.reply.Replied? {
      var c := Validate(p, validId, s, caller, body);
      PersistIsolated(s, c.chat, caller, c.message, out.reply.reply, userMsgId, botMsgId, other);
    }
  }

  // ---------------------------------------------------------------------
  // isolation: reads depend on the caller's own records only

  lemma ListReadsOwnView(s1: Store, s2: Store, caller: Oid)
    requires View(s1, caller).0 == View(s2, caller).0
    ensures ListChats(s1, caller) == ListChats(s2, caller)
  {
  }

  lemma GetReadsOwnView(validId: string -> bool, s1: Store, s2: Store, caller: Oid, id: string)
    requires View(s1, caller) == View(s2, caller)
    ensures GetChat(validId, s1, caller, id) == GetChat(validId, s2, caller, id)
  {
    OwnedChatOfOwn(s1.chats, id, caller);
    OwnedChatOfOwn(s2.chats, id, caller);
    ThreadOfOwn(s1.messages, id, caller);
    ThreadOfOwn(s2.messages, id, caller);
  }

  // ---------------------------------------------------------------------
  // create, delete and send, seen through the read routes

  /** A new chat shows in its owner's list, and in no one else's. */
  lemma CreatedChatListedForOwnerOnly(s: Store, caller: Oid, body: Json, freshId: Oid, other: Oid)
    requires other != caller
    ensures var out := CreateChat(s, caller, body, freshId);
      out.reply.ChatCreated? ==>
      && out.reply.chat in ListChats(out.store, caller).chats
      && out.reply.chat !in ListChats(out.store, other).chats
  {
  }

  /** After a delete the chat is gone for its owner, with every message of
      its thread. */
  lemma DeleteCascades(validId: string -> bool, s: Store, caller: Oid, id: string)
    requires ChatIdsUnique(s.chats)
    requires DeleteChat(validId, s, caller, id).reply.ChatDeleted?
    ensures var s' := DeleteChat(validId, s, caller, id).store;
      && GetChat(validId, s', caller, id) == ChatError(404, "Chat not found.")
      && Thread(s'.messages, id, caller) == []
  {
    var s' := DeleteChat(validId, s, caller, id).store;
    var i := FindOwned(s.chats, id, caller).value;
    forall c | c in s'.chats
      ensures !(c.id == id && c.user == caller)
    {
      var k :| 0 <= k < |s'.chats| && s'.chats[k] == c;
      if k < i {
        assert c == s.chats[k];
      } else {
        assert c == s.chats[k + 1];
      }
    }
    assert OwnedChat(s'.chats, id, caller).None?;
    NoThreadLeft(s'.messages, id, caller);
  }

  lemma NoThreadLeft(msgs: seq<Message>, id: Oid, u: Oid)
    requires forall m :: m in msgs ==> !InThread(m, id, u)
    ensures Thread(msgs, id, u) == []
  {
  }

  /** After the writes of a successful exchange the chat heads its owner's
      list, stamped last. */
  lemma PersistBringsChatToTop(s: Store, chat: Chat, caller: Oid, message: string, reply: string,
                               userMsgId: Oid, botMsgId: Oid)
    requires ChatIdsUnique(s.chats) && StampsBefore(s)
    requires chat in s.chats && chat.user == caller
    ensures var list := ListChats(Persist(s, chat, caller, message, reply, userMsgId, botMsgId), caller).chats;
      && |list| > 0
      && list[0].id == chat.id
      && list[0].updatedAt == s.clock + 2
  {
    var s' := Persist(s, chat, caller, message, reply, userMsgId, botMsgId);
    var k :| 0 <= k < |s.chats| && s.chats[k] == chat;
    var i := FindById(s.chats, chat.id).value;
    assert i == k;
    var bumped := s'.chats[i];
    assert bumped.updatedAt == s.clock + 2 && bumped.user == caller;
    var list := ListChats(s', caller).chats;
    assert bumped in list;
    var jb :| 0 <= jb < |list| && list[jb] == bumped;
    assert list[0].updatedAt >= s.clock + 2 by {
      if jb > 0 {
        assert list[0].updatedAt >= list[jb].updatedAt;
      }
    }
    assert list[0] in s'.chats;
    OnlyBumpedIsLatest(s, s'.chats, i);
  }

  /** When one chat is restamped and the others are kept, only the
      restamped one can carry a stamp at or after the old clock. */
  lemma OnlyBumpedIsLatest(s: Store, chats': seq<Chat>, i: nat)
    requires StampsBefore(s)
    requires |chats'| == |s.chats| && i < |chats'|
    requires forall k :: 0 <= k < |s.chats| && k != i ==> chats'[k] == s.chats[k]
    ensures forall c :: c in chats' && c.updatedAt >= s.clock ==> c == chats'[i]
  {
    forall c | c in chats' && c.updatedAt >= s.clock
      ensures c == chats'[i]
    {
      var j :| 0 <= j < |chats'| && chats'[j] == c;
    }
  }

  lemma SendBringsChatToTop(p: Provider, validId: string -> bool, s: Store, caller: Oid, body: Json,
                            call: Payload -> Upstream, userMsgId: Oid, botMsgId: Oid)
    requires ChatIdsUnique(s.chats) && StampsBefore(s)
    requires Send(p, validId, s, caller, body, call, userMsgId, botMsgId).reply.Replied?
    ensures var out := Send(p, validId, s, caller, body, call, userMsgId, botMsgId);
      var list := ListChats(out.store, caller).chats;
      && |list| > 0
      && Some(list[0].id) == RequestChatId(body)
      && list[0].updatedAt == s.clock + 2
  {
    var out := Send(p, validId, s, caller, body, call, userMsgId, botMsgId);
    var c := Validate(p, validId, s, caller, body);
    PersistBringsChatToTop(s, c.chat, caller, c.message, out.reply.reply, userMsgId, botMsgId);
  }

  /** After the writes of a successful exchange the chat's thread, oldest
      first, ends with the user message and then the bot reply paired to it. */
  lemma PersistThenGet(validId: string -> bool, s: Store, chat: Chat, caller: Oid, message: string,
                       reply: string, userMsgId: Oid, botMsgId: Oid)
    requires StampsBefore(s)
    requires chat in s.chats && chat.user == caller && validId(chat.id)
    ensures var r := GetChat(validId, Persist(s, chat, caller, message, reply, userMsgId, botMsgId), caller, chat.id);
      && r.ChatWithMessages?
      && |r.messages| >= 2
      && r.messages[|r.messages| - 2] == Message(userMsgId, chat.id, caller, UserSender, message, None, s.clock)
      && r.messages[|r.messages| - 1] == Message(botMsgId, chat.id, caller, BotSender, reply, Some(userMsgId), s.clock + 1)
  {
    var s' := Persist(s, chat, caller, message, reply, userMsgId, botMsgId);
    var k :| 0 <= k < |s.chats| && s.chats[k] == chat;
    assert s'.chats[k].id == chat.id && s'.chats[k].user == caller;
    var n := |s.messages|;
    assert s'.messages == s.messages + [s'.messages[n], s'.messages[n + 1]];
    AppendedPairComesLast(s.messages, s'.messages[n], s'.messages[n + 1], chat.id, caller, s.clock);
  }

  /** Two messages of a thread appended after everything older come last,
      in order, when the thread is read oldest first. */
  lemma AppendedPairComesLast(msgs: seq<Message>, um: Message, bm: Message, chatId: Oid, u: Oid, t: nat)
    requires forall m :: m in msgs ==> m.createdAt < t
    requires InThread(um, chatId, u) && InThread(bm, chatId, u)
    requires um.createdAt == t && bm.createdAt == t + 1
    ensures var ms := ThreadByAge(msgs + [um, bm], chatId, u);
      |ms| >= 2 && ms[|ms| - 2] == um && ms[|ms| - 1] == bm
  {
    var before := Thread(msgs, chatId, u);
    var ms := ThreadByAge(msgs + [um, bm], chatId, u);
    assert multiset(ms) == multiset(before + [um, bm]) by {
      ThreadOfAppendedPair(msgs, um, bm, chatId, u);
    }
    assert forall m :: m in before ==> m.createdAt < t;
    LastTwoByAge(ms, before, um, bm, t);
  }

  lemma ThreadOfAppendedPair(msgs: seq<Message>, um: Message, bm: Message, chatId: Oid, u: Oid)
    requires InThread(um, chatId, u) && InThread(bm, chatId, u)
    ensures Thread(msgs + [um, bm], chatId, u) == Thread(msgs, chatId, u) + [um, bm]
  {
    ThreadAppend(msgs, [um, bm], chatId, u);
    assert [um, bm][1..][1..] == [];
    assert Thread([um, bm], chatId, u) == [um, bm];
  }

  /** In a sequence ordered by age that holds, besides messages older
      than `t`, `um` stamped `t` and `bm` stamped `t + 1`, the last two are
      `um` and `bm`. */
  lemma LastTwoByAge(ms: seq<Message>, before: seq<Message>, um: Message, bm: Message, t: nat)
    requires forall i, j :: 0 <= i < j < |ms| ==> ms[i].createdAt <= ms[j].createdAt
    requires multiset(ms) == multiset(before + [um, bm])
    requires forall m :: m in before ==> m.createdAt < t
    requires um.createdAt == t && bm.createdAt == t + 1
    ensures |ms| >= 2 && ms[|ms| - 2] == um && ms[|ms| - 1] == bm
  {
    PairMembers(ms, before, um, bm, t);
    var n := |ms|;
    var iu :| 0 <= iu < n && ms[iu] == um;
    var ib :| 0 <= ib < n && ms[ib] == bm;
    assert ms[n - 1] == bm by {
      assert ms[ib].createdAt <= ms[n - 1].createdAt;
    }
    assert ms[n - 2] == um by {
      assert iu < n - 1;
      assert ms[iu].createdAt <= ms[n - 2].createdAt;
      if ms[n - 2] == bm {
        CountedTwice(ms, n - 2, n - 1);
      }
    }
  }

  /** The members of a permutation of `before + [um, bm]`: `um` and `bm`,
      `bm` once, and otherwise only messages older than `t`. */
  lemma PairMembers(ms: seq<Message>, before: seq<Message>, um: Message, bm: Message, t: nat)
    requires multiset(ms) == multiset(before + [um, bm])
    requires forall m :: m in before ==> m.createdAt < t
    requires um.createdAt == t && bm.createdAt == t + 1
    ensures um in ms && bm in ms && multiset(ms)[bm] == 1
    ensures forall m :: m in ms ==> m == um || m == bm || m.createdAt < t
  {
    assert multiset(before + [um, bm]) == multiset(before) + multiset{um, bm};
    assert bm !in before;
    assert um in multiset(ms) && bm in multiset(ms);
    forall m | m in ms && m != um && m != bm
      ensures m.createdAt < t
    {
      assert m in multiset(ms);
      assert m in multiset(before);
    }
  }

  lemma SendThenGetEndsWithPair(p: Provider, validId: string -> bool, s: Store, caller: Oid, body: Json,
                                call: Payload -> Upstream, userMsgId: Oid, botMsgId: Oid)
    requires StampsBefore(s)
    requires Send(p, validId, s, caller, body, call, userMsgId, botMsgId).reply.Replied?
    ensures RequestChatId(body).Some?
    ensures var out := Send(p, validId, s, caller, body, call, userMsgId, botMsgId);
      var r := GetChat(validId, out.store, caller, RequestChatId(body).value);
      && r.ChatWithMessages?
      && |r.messages| >= 2
      && r.messages[|r.messages| - 2].role == UserSender
      && Some(r.messages[|r.messages| - 2].text) == RequestMessage(body)
      && r.messages[|r.messages| - 1].role == BotSender
      && r.messages[|r.messages| - 1].text == out.reply.reply
      && r.messages[|r.messages| - 1].pairId == Some(r.messages[|r.messages| - 2].id)
  {
    var out := Send(p, validId, s, caller, body, call, userMsgId, botMsgId);
    var c := Validate(p, validId, s, caller, body);
    PersistThenGet(validId, s, c.chat, caller, c.message, out.reply.reply, userMsgId, botMsgId);
  }

  /** An element found at two positions is counted twice. */
  lemma CountedTwice<T>(s: seq<T>, i: nat, j: nat)
    requires i < j < |s| && s[i] == s[j]
    ensures multiset(s)[s[i]] >= 2
  {
    assert s == s[..j] + [s[j]] + s[j + 1..];
    assert s[i] in s[..j];
  }
}

=== FILE: prompt.dfy ===
/**
 * Prompt assembly for the completion request (routes/aiRoutes.js): the
 * most recent `HistoryLimit` stored messages of the chat, oldest first, as
 * role-tagged turns, between a fixed system instruction and the new user
 * turn.
 */
module Prompt {

  import opened Store

  /** How many stored messages are replayed to the provider. */
  const HistoryLimit: nat := 12

  const SystemInstruction: string := "You are a helpful assistant."

  /** The roles of the provider's chat-completion protocol. */
  datatype Role = SystemRole | UserRole | AssistantRole

  datatype Turn = Turn(role: Role, content: string)

  /** The request body sent to the provider (sampling knobs left out). */
  datatype Payload = Payload(model: string, messages: seq<Turn>)

  function Min(a: nat, b: nat): (m: nat)
    ensures m <= a && m <= b && (m == a || m == b)
  {
    if a <= b then a else b
  }

  /** `docs.slice(-HistoryLimit)`: the last `min(HistoryLimit, |docs|)`
      elements, in their original order. */
  function Window<T>(docs: seq<T>): (w: seq<T>)
    ensures |w| == Min(HistoryLimit, |docs|)
    ensures docs == docs[..|docs| - |w|] + w
  {
    if |docs| <= HistoryLimit then docs else docs[|docs| - HistoryLimit..]
  }

  /** A stored message as a provider turn: bot messages speak as the
      assistant, everything else as the user. */
  function ToTurn(m: Message): (t: Turn)
    ensures t.content == m.text
    ensures t.role == AssistantRole <==> m.role == BotSender
    ensures t.role != SystemRole
  {
    Turn(if m.role == BotSender then AssistantRole else UserRole, m.text)
  }

  function ToTurns(ms: seq<Message>): (ts: seq<Turn>)
    ensures |ts| == |ms|
    ensures forall i :: 0 <= i < |ms| ==> ts[i] == ToTurn(ms[i])
  {
    if ms == [] then [] else [ToTurn(ms[0])] + ToTurns(ms[1..])
  }

  /** The `messages` array: system turn, windowed history, new user turn.
      `history` is the chat's stored thread, oldest first. */
  function BuildMessages(history: seq<Message>, message: string): (ts: seq<Turn>)
    ensures |ts| == Min(HistoryLimit, |history|) + 2
    ensures ts[0] == Turn(SystemRole, SystemInstruction)
    ensures ts[|ts| - 1] == Turn(UserRole, message)
    ensures var k := |ts| - 2;
      forall i :: 1 <= i <= k ==> ts[i] == ToTurn(history[|history| - k + i - 1])
  {
    var w := Window(history);
    FramedTurns(w, history, message);
    [Turn(SystemRole, SystemInstruction)] + ToTurns(w) + [Turn(UserRole, message)]
  }

  /** Framing the turns of a suffix of the history between the system turn
      and the new message. */
  lemma FramedTurns(w: seq<Message>, history: seq<Message>, message: string)
    requires |w| <= |history| && history == history[..|history| - |w|] + w
    ensures var ts := [Turn(SystemRole, SystemInstruction)] + ToTurns(w) + [Turn(UserRole, message)];
      && |ts| == |w| + 2
      && ts[0] == Turn(SystemRole, SystemInstruction)
      && ts[|ts| - 1] == Turn(UserRole, message)
      && forall i :: 1 <= i <= |w| ==> ts[i] == ToTurn(history[|history| - |w| + i - 1])
  {
    var mid := ToTurns(w);
    var ts := [Turn(SystemRole, SystemInstruction)] + mid + [Turn(UserRole, message)];
    forall i | 1 <= i <= |w|
      ensures ts[i] == ToTurn(history[|history| - |w| + i - 1])
    {
      assert ts[i] == mid[i - 1];
      assert w[i - 1] == history[|history| - |w| + i - 1];
    }
  }

  function BuildPayload(model: string, history: seq<Message>, message: string): (p: Payload)
    ensures p.model == model
    ensures p.messages == BuildMessages(history, message)
  {
    Payload(model, BuildMessages(history, message))
  }

  // ---------------------------------------------------------------------
  // properties

  /** A history within the limit is replayed in full. */
  lemma ShortHistoryReplayedWhole(history: seq<Message>, message: string)
    requires |history| <= HistoryLimit
    ensures BuildMessages(history, message)
         == [Turn(SystemRole, SystemInstruction)] + ToTurns(history) + [Turn(UserRole, message)]
  {
  }

  /** The system turn occurs exactly once, first: no stored message is
      replayed as a system instruction. */
  lemma SystemTurnOnlyFirst(history: seq<Message>, message: string)
    ensures var ts := BuildMessages(history, message);
      forall i :: 1 <= i < |ts| ==> ts[i].role != SystemRole
  {
  }

  /** The window slides: one more stored message pushes the oldest replayed
      one out once the limit is reached. */
  lemma {:induction false} WindowSlides<T>(docs: seq<T>, x: T)
    ensures Window(docs + [x])
         == (if |docs| < HistoryLimit then Window(docs) else Window(docs)[1..]) + [x]
  {
    var w := Window(docs);
    var w' := Window(docs + [x]);
    if |docs| < HistoryLimit {
      assert w == docs;
    } else {
      assert w == docs[|docs| - HistoryLimit..];
      assert w' == (docs + [x])[|docs| + 1 - HistoryLimit..];
      assert w' == docs[|docs| + 1 - HistoryLimit..] + [x];
    }
  }
}

=== FILE: reply.dfy ===
/**
 * `extractReply` (routes/aiRoutes.js): the plain reply text in a provider
 * response. The first choice is read in three known shapes, in order:
 * `message.content` (OpenAI / OpenRouter), `text` (completion-style models)
 * and `delta.content` (stream-like chunks). A shape counts only when its
 * field holds a string; the text found is trimmed.
 */
module Reply {

  import opened Wrappers
  import opened JsString
  import opened JsValue

  /** `data.choices[0]`, provided `data` is truthy, `data.choices` is an
      array and its first element is truthy. */
  function FirstChoice(data: Json): (r: Option<Json>)
    ensures r.Some? <==>
      Truthy(data) && Field(data, "choices").Arr? && Truthy(Head(Field(data, "choices").items))
    ensures r.Some? ==> r.value == Field(data, "choices").items[0]
  {
    var choices := Field(data, "choices");
    if !Truthy(data) || !choices.Arr? || !Truthy(Head(choices.items)) then None
    else Some(choices.items[0])
  }

  /** `v[key]` when it is a string. */
  function StringField(v: Json, key: string): (r: Option<string>)
    ensures r.Some? <==> Field(v, key).Str?
    ensures r.Some? ==> r.value == Field(v, key).s
  {
    var f := Field(v, key);
    if f.Str? then Some(f.s) else None
  }

  /** `v[outer][key]` when `v[outer]` is truthy and its `key` is a string. */
  function NestedString(v: Json, outer: string, key: string): (r: Option<string>)
    ensures r.Some? ==> Truthy(Field(v, outer)) && r == StringField(Field(v, outer), key)
    ensures r.None? ==> !Truthy(Field(v, outer)) || StringField(Field(v, outer), key).None?
  {
    var o := Field(v, outer);
    if Truthy(o) then StringField(o, key) else None
  }

  /** The untrimmed reply a choice carries: the first shape that applies. */
  function RawReply(choice: Json): (r: Option<string>)
    ensures r.Some? <==>
      || NestedString(choice, "message", "content").Some?
      || StringField(choice, "text").Some?
      || NestedString(choice, "delta", "content").Some?
    ensures r.Some? ==>
      || r == NestedString(choice, "message", "content")
      || r == StringField(choice, "text")
      || r == NestedString(choice, "delta", "content")
  {
    match NestedString(choice, "message", "content")
    case Some(t) => Some(t)
    case None =>
      match StringField(choice, "text")
      case Some(t) => Some(t)
      case None => NestedString(choice, "delta", "content")
  }

  /** `extractReply(data)`: the trimmed text of the first applicable shape
      of the first choice, or `""` when there is no choice or no shape. */
  function ExtractReply(data: Json): (r: string)
    ensures Trimmed(r)
    ensures FirstChoice(data).None? ==> r == ""
    ensures FirstChoice(data).Some? && RawReply(FirstChoice(data).value).None? ==> r == ""
    ensures FirstChoice(data).Some? && RawReply(FirstChoice(data).value).Some?
      ==> r == Trim(RawReply(FirstChoice(data).value).value)
  {
    match FirstChoice(data)
    case None => ""
    case Some(choice) =>
      match RawReply(choice)
      case None => ""
      case Some(t) => Trim(t)
  }

  // ---------------------------------------------------------------------
  // properties

  /** A reply is empty exactly when no shape applies or the text found is
      all white space. */
  lemma ExtractReplyEmpty(data: Json)
    ensures ExtractReply(data) == "" <==>
      || FirstChoice(data).None?
      || RawReply(FirstChoice(data).value).None?
      || AllSpace(RawReply(FirstChoice(data).value).value)
  {
    if FirstChoice(data).Some? && RawReply(FirstChoice(data).value).Some? {
      TrimEmptyIffAllSpace(RawReply(FirstChoice(data).value).value);
    }
  }

  /** The reply is already trimmed: trimming it again changes nothing. */
  lemma ExtractReplyTrimStable(data: Json)
    ensures Trim(ExtractReply(data)) == ExtractReply(data)
  {
    TrimOfTrimmed(ExtractReply(data));
  }

  /** Two choices that agree on a `message` whose `content` is a string give
      the same reply, whatever their `text` and `delta`: `message.content`
      wins. */
  lemma MessageContentWins(c1: Json, c2: Json)
    requires NestedString(c1, "message", "content").Some?
    requires Field(c1, "message") == Field(c2, "message")
    ensures RawReply(c1) == RawReply(c2) == NestedString(c1, "message", "content")
  {
  }

  /** Without a usable `message.content`, two choices that agree on a string
      `text` give the same reply whatever their `delta`: `text` wins over
      `delta.content`. */
  lemma TextWinsOverDelta(c1: Json, c2: Json)
    requires NestedString(c1, "message", "content").None?
    requires NestedString(c2, "message", "content").None?
    requires Field(c1, "text").Str? && Field(c1, "text") == Field(c2, "text")
    ensures RawReply(c1) == RawReply(c2) == Some(Field(c1, "text").s)
  {
  }

  /** A field that is not a string is passed over: with neither
      `message.content` nor `text` a string, only `delta` decides. */
  lemma DeltaIsLastResort(c1: Json, c2: Json)
    requires NestedString(c1, "message", "content").None? && StringField(c1, "text").None?
    requires NestedString(c2, "message", "content").None? && StringField(c2, "text").None?
    requires Field(c1, "delta") == Field(c2, "delta")
    ensures RawReply(c1) == RawReply(c2) == NestedString(c1, "delta", "content")
  {
  }

  /** Only the first choice is read: later choices never matter. */
  lemma OnlyFirstChoiceMatters(first: Json, rest1: seq<Json>, rest2: seq<Json>)
    ensures ExtractReply(Obj(map["choices" := Arr([first] + rest1)]))
         == ExtractReply(Obj(map["choices" := Arr([first] + rest2)]))
  {
    var d1 := Obj(map["choices" := Arr([first] + rest1)]);
    var d2 := Obj(map["choices" := Arr([first] + rest2)]);
    assert Field(d1, "choices") == Arr([first] + rest1);
    assert Field(d2, "choices") == Arr([first] + rest2);
    assert Head(([first] + rest1)) == first == Head([first] + rest2);
    assert FirstChoice(d1) == FirstChoice(d2);
  }

  /** A response whose `choices` is missing, not an array, empty, or starts
      with a falsy element yields `""`. */
  lemma NoChoiceNoReply(data: Json)
    requires || !Truthy(data)
             || !Field(data, "choices").Arr?
             || Field(data, "choices").items == []
             || !Truthy(Field(data, "choices").items[0])
    ensures ExtractReply(data) == ""
  {
  }

  /** The standard shape `{ choices: [{ message: { content: t } }] }`
      yields `t` trimmed. */
  lemma StandardShape(t: string)
    ensures ExtractReply(Obj(map["choices" := Arr([Obj(map["message" := Obj(map["content" := Str(t)])])])]))
         == Trim(t)
  {
    var msg := Obj(map["content" := Str(t)]);
    var choice := Obj(map["message" := msg]);
    var data := Obj(map["choices" := Arr([choice])]);
    assert Field(data, "choices") == Arr([choice]);
    assert Field(choice, "message") == msg;
    assert Field(msg, "content") == Str(t);
    assert Head([choice]) == choice;
    assert FirstChoice(data) == Some(choice);
    assert NestedString(choice, "message", "content") == Some(t);
    assert RawReply(choice) == Some(t);
  }
}

=== FILE: sorting.dfy ===
/**
 * Ordering query results by a timestamp, as Mongo's `.sort({ field: 1 })`
 * does. The sort is a stable insertion sort on sequences, keyed by a named
 * key function.
 */
module Sorting {

  /** `s` is in non-decreasing `key` order. */
  ghost predicate SortedBy<T>(s: seq<T>, key: T -> int) {
    forall i, j :: 0 <= i < j < |s| ==> key(s[i]) <= key(s[j])
  }

  /** `x` placed into sorted `s` before the first element whose key is not
      smaller. */
  function Insert<T>(x: T, s: seq<T>, key: T -> int): (r: seq<T>)
    requires SortedBy(s, key)
    ensures SortedBy(r, key)
    ensures multiset(r) == multiset(s) + multiset{x}
    ensures |r| == |s| + 1
    ensures r[0] == x || (s != [] && r[0] == s[0])
  {
    if s == [] then [x]
    else if key(x) <= key(s[0]) then
      SortedCons(x, s, key);
      [x] + s
    else
      SortedTail(s, key);
      var rest := Insert(x, s[1..], key);
      InsertAfterHead(x, s, key, rest);
      [s[0]] + rest
  }

  /** The step of `Insert` that keeps the head: `rest` is `x` inserted into
      the tail, as the recursive call promises it. */
  lemma InsertAfterHead<T>(x: T, s: seq<T>, key: T -> int, rest: seq<T>)
    requires SortedBy(s, key) && s != [] && key(s[0]) < key(x)
    requires SortedBy(rest, key)
    requires multiset(rest) == multiset(s[1..]) + multiset{x}
    requires |rest| == |s|
    requires rest[0] == x || (s[1..] != [] && rest[0] == s[1..][0])
    ensures SortedBy([s[0]] + rest, key)
    ensures multiset([s[0]] + rest) == multiset(s) + multiset{x}
  {
    SortedTail(s, key);
    assert key(s[0]) <= key(rest[0]);
    SortedCons(s[0], rest, key);
    assert s == [s[0]] + s[1..];
  }

  /** The tail of a sorted sequence is sorted, and no key in it is smaller
      than the head's. */
  lemma SortedTail<T>(s: seq<T>, key: T -> int)
    requires SortedBy(s, key) && s != []
    ensures SortedBy(s[1..], key)
    ensures |s| > 1 ==> key(s[0]) <= key(s[1..][0])
  {
    forall i, j | 0 <= i < j < |s| - 1
      ensures key(s[1..][i]) <= key(s[1..][j])
    {
      assert s[1..][i] == s[i + 1] && s[1..][j] == s[j + 1];
    }
  }

  /** Putting a key no greater than the first in front keeps the order. */
  lemma SortedCons<T>(h: T, s: seq<T>, key: T -> int)
    requires SortedBy(s, key)
    requires s == [] || key(h) <= key(s[0])
    ensures SortedBy([h] + s, key)
  {
    var r := [h] + s;
    forall i, j | 0 <= i < j < |r|
      ensures key(r[i]) <= key(r[j])
    {
      assert r[j] == s[j - 1];
      if i > 0 {
        assert r[i] == s[i - 1];
      } else {
        assert key(s[0]) <= key(s[j - 1]);
      }
    }
  }

  /** `s` reordered by `key`: a permutation of `s` in non-decreasing key order. */
  function SortBy<T>(s: seq<T>, key: T -> int): (r: seq<T>)
    ensures SortedBy(r, key)
    ensures multiset(r) == multiset(s)
    ensures |r| == |s|
  {
    if s == [] then []
    else
      assert s == [s[0]] + s[1..];
      Insert(s[0], SortBy(s[1..], key), key)
  }

  /** Permutations have the same elements. */
  lemma SameElements<T>(a: seq<T>, b: seq<T>)
    requires multiset(a) == multiset(b)
    ensures forall x :: x in a <==> x in b
  {
    assert forall x :: x in a <==> x in multiset(a);
    assert forall x :: x in b <==> x in multiset(b);
  }
}

=== FILE: store.dfy ===
/**
 * The persistent state behind the chat routes: the `Chat` and `Message`
 * collections (models/Chat.js, models/Message.js) and a logical clock that
 * stands in for Mongoose's `createdAt` / `updatedAt` timestamps. Every
 * collection is a sequence in insertion order, so a `findOne` is the first
 * match.
 */
module Store {

  import opened Wrappers
  import opened Sorting

  /** A database object id, as the routes receive and compare it. */
  type Oid = string

  /** The title a chat gets when it is created without one. */
  const DefaultTitle: string := "Untitled Chat"

  datatype Chat = Chat(id: Oid, user: Oid, title: string, createdAt: nat, updatedAt: nat)

  /** Who wrote a message: the schema's `role` enum `['user', 'bot']`. */
  datatype Sender = UserSender | BotSender

  /** One stored turn. A bot reply carries in `pairId` the id of the user
      message that produced it. */
  datatype Message = Message(
    id: Oid, chatId: Oid, user: Oid, role: Sender, text: string,
    pairId: Option<Oid>, createdAt: nat)

  /** `clock` is strictly later than every timestamp already written. */
  datatype Store = Store(chats: seq<Chat>, messages: seq<Message>, clock: nat)

  /** What a route handler leaves behind: the next store and its answer. */
  datatype Outcome<+R> = Outcome(store: Store, reply: R)

  // ---------------------------------------------------------------------
  // queries

  /** `Chat.find({ user: u })`: the chats owned by `u`, in store order. */
  function ChatsOf(chats: seq<Chat>, u: Oid): (r: seq<Chat>)
    ensures forall c :: c in r <==> c in chats && c.user == u
    ensures |r| <= |chats|
  {
    if chats == [] then []
    else (if chats[0].user == u then [chats[0]] else []) + ChatsOf(chats[1..], u)
  }

  /** Every message `u` owns: the per-user view the isolation lemmas compare. */
  function MessagesOf(msgs: seq<Message>, u: Oid): (r: seq<Message>)
    ensures forall m :: m in r <==> m in msgs && m.user == u
    ensures |r| <= |msgs|
  {
    if msgs == [] then []
    else (if msgs[0].user == u then [msgs[0]] else []) + MessagesOf(msgs[1..], u)
  }

  /** A message belongs to the thread of chat `chatId` as seen by `u`. */
  predicate InThread(m: Message, chatId: Oid, u: Oid) {
    m.chatId == chatId && m.user == u
  }

  /** `Message.find({ chatId, user: u })`: the thread, in store order. */
  function Thread(msgs: seq<Message>, chatId: Oid, u: Oid): (r: seq<Message>)
    ensures forall m :: m in r <==> m in msgs && InThread(m, chatId, u)
    ensures |r| <= |msgs|
  {
    if msgs == [] then []
    else (if InThread(msgs[0], chatId, u) then [msgs[0]] else []) + Thread(msgs[1..], chatId, u)
  }

  /** `Message.deleteMany({ chatId, user: u })`: every message outside the
      thread, in store order. */
  function DropThread(msgs: seq<Message>, chatId: Oid, u: Oid): (r: seq<Message>)
    ensures forall m :: m in r <==> m in msgs && !InThread(m, chatId, u)
    ensures multiset(r) + multiset(Thread(msgs, chatId, u)) == multiset(msgs)
    ensures |r| <= |msgs|
  {
    if msgs == [] then []
    else
      assert msgs == [msgs[0]] + msgs[1..];
      (if InThread(msgs[0], chatId, u) then [] else [msgs[0]]) + DropThread(msgs[1..], chatId, u)
  }

  /** Position of the first chat with id `id`, whoever owns it
      (`Chat.updateOne({ _id: id }, …)`). */
  function FindById(chats: seq<Chat>, id: Oid): (r: Option<nat>)
    ensures r.Some? ==> r.value < |chats| && chats[r.value].id == id
    ensures r.Some? ==> forall k :: 0 <= k < r.value ==> chats[k].id != id
    ensures r.None? ==> forall k :: 0 <= k < |chats| ==> chats[k].id != id
  {
    if chats == [] then None
    else if chats[0].id == id then Some(0)
    else match FindById(chats[1..], id)
      case None => None
      case Some(k) => Some(k + 1)
  }

  /** Position of the first chat with id `id` owned by `u`
      (`Chat.findOne({ _id: id, user: u })`). */
  function FindOwned(chats: seq<Chat>, id: Oid, u: Oid): (r: Option<nat>)
    ensures r.Some? ==> r.value < |chats| && chats[r.value].id == id && chats[r.value].user == u
    ensures r.Some? ==> forall k :: 0 <= k < r.value ==> !(chats[k].id == id && chats[k].user == u)
    ensures r.None? ==> forall k :: 0 <= k < |chats| ==> !(chats[k].id == id && chats[k].user == u)
  {
    if chats == [] then None
    else if chats[0].id == id && chats[0].user == u then Some(0)
    else match FindOwned(chats[1..], id, u)
      case None => None
      case Some(k) => Some(k + 1)
  }

  /** The chat `Chat.findOne({ _id: id, user: u })` returns. */
  function OwnedChat(chats: seq<Chat>, id: Oid, u: Oid): (r: Option<Chat>)
    ensures r.Some? ==> r.value in chats && r.value.id == id && r.value.user == u
    ensures r.None? ==> forall c :: c in chats ==> !(c.id == id && c.user == u)
  {
    match FindOwned(chats, id, u)
    case None => None
    case Some(k) => Some(chats[k])
  }

  /** Sort key of `.sort({ createdAt: 1 })`. */
  function CreatedKey(m: Message): int {
    m.createdAt
  }

  /** Sort key of `.sort({ updatedAt: -1 })`: most recently updated first. */
  function RecencyKey(c: Chat): int {
    0 - c.updatedAt as int
  }

  /** Sorting by `RecencyKey` orders by `updatedAt`, newest first. */
  function ByRecency(chats: seq<Chat>): (r: seq<Chat>)
    ensures multiset(r) == multiset(chats)
    ensures forall c :: c in r <==> c in chats
    ensures forall i, j :: 0 <= i < j < |r| ==> r[i].updatedAt >= r[j].updatedAt
  {
    var r := SortBy(chats, RecencyKey);
    SameElements(r, chats);
    assert forall i, j :: 0 <= i < j < |r| ==> RecencyKey(r[i]) <= RecencyKey(r[j]);
    r
  }

  /** `Message.find({ chatId, user: u }).sort({ createdAt: 1 })`: the
      thread oldest first. */
  function ThreadByAge(msgs: seq<Message>, chatId: Oid, u: Oid): (r: seq<Message>)
    ensures forall m :: m in r <==> m in msgs && InThread(m, chatId, u)
    ensures multiset(r) == multiset(Thread(msgs, chatId, u))
    ensures forall i, j :: 0 <= i < j < |r| ==> r[i].createdAt <= r[j].createdAt
  {
    var t := Thread(msgs, chatId, u);
    var r := SortBy(t, CreatedKey);
    SameElements(r, t);
    r
  }

  // ---------------------------------------------------------------------
  // the store invariant

  predicate ChatIdsUnique(chats: seq<Chat>) {
    forall i, j :: 0 <= i < j < |chats| ==> chats[i].id != chats[j].id
  }

  predicate MessageIdsUnique(msgs: seq<Message>) {
    forall i, j :: 0 <= i < j < |msgs| ==> msgs[i].id != msgs[j].id
  }

  /** `c` is the chat `m` belongs to, owned by the same user. */
  predicate Owns(c: Chat, m: Message) {
    c.id == m.chatId && c.user == m.user
  }

  /** `u` is the user message the bot reply `m` answers, in the same thread. */
  predicate Answers(m: Message, u: Message) {
    m.pairId == Some(u.id) && u.role == UserSender && InThread(u, m.chatId, m.user)
  }

  /** Every timestamp already written lies before the clock. */
  predicate StampsBefore(s: Store) {
    && (forall c :: c in s.chats ==> c.createdAt <= c.updatedAt < s.clock)
    && (forall m :: m in s.messages ==> m.createdAt < s.clock)
  }

  /** The store invariant: ids are unique per collection; every message
      lies in a chat owned by the message's user; every pairing reference
      resolves to a user message of the same thread; timestamps precede
      the clock. */
  ghost predicate Valid(s: Store) {
    && ChatIdsUnique(s.chats)
    && MessageIdsUnique(s.messages)
    && EveryMessageOwned(s)
    && EveryPairResolves(s)
    && StampsBefore(s)
  }

  /** Every message lies in a chat of its own user. */
  ghost predicate EveryMessageOwned(s: Store) {
    forall m :: m in s.messages ==> exists c :: c in s.chats && Owns(c, m)
  }

  /** Every bot reply's `pairId` names a user message of its thread. */
  ghost predicate EveryPairResolves(s: Store) {
    forall m :: m in s.messages && m.pairId.Some? ==> exists u :: u in s.messages && Answers(m, u)
  }

  /** The empty database. */
  function Empty(): (s: Store)
    ensures Valid(s)
  {
    Store([], [], 0)
  }

  predicate FreshChatId(s: Store, id: Oid) {
    forall c :: c in s.chats ==> c.id != id
  }

  predicate FreshMessageId(s: Store, id: Oid) {
    forall m :: m in s.messages ==> m.id != id
  }

  // ---------------------------------------------------------------------
  // facts about the queries

  lemma {:induction false} ThreadAppend(a: seq<Message>, b: seq<Message>, chatId: Oid, u: Oid)
    ensures Thread(a + b, chatId, u) == Thread(a, chatId, u) + Thread(b, chatId, u)
    decreases |a|
  {
    if a != [] {
      var h := if InThread(a[0], chatId, u) then [a[0]] else [];
      assert (a + b)[0] == a[0];
      assert (a + b)[1..] == a[1..] + b;
      ThreadAppend(a[1..], b, chatId, u);
      assert Thread(a + b, chatId, u) == h + Thread(a[1..] + b, chatId, u);
      assert Thread(a, chatId, u) == h + Thread(a[1..], chatId, u);
      var x, y := Thread(a[1..], chatId, u), Thread(b, chatId, u);
      assert h + (x + y) == (h + x) + y;
    } else {
      assert a + b == b;
    }
  }

  lemma {:induction false} MessagesOfAppend(a: seq<Message>, b: seq<Message>, u: Oid)
    ensures MessagesOf(a + b, u) == MessagesOf(a, u) + MessagesOf(b, u)
    decreases |a|
  {
    if a != [] {
      var h := if a[0].user == u then [a[0]] else [];
      assert (a + b)[0] == a[0];
      assert (a + b)[1..] == a[1..] + b;
      MessagesOfAppend(a[1..], b, u);
      var x, y := MessagesOf(a[1..], u), MessagesOf(b, u);
      assert MessagesOf(a + b, u) == h + (x + y);
      assert MessagesOf(a, u) == h + x;
      assert h + (x + y) == (h + x) + y;
    } else {
      assert a + b == b;
    }
  }

  /** `find({ user: u })` returns each of `u`'s chats as often as it is
      stored, and nothing else. */
  lemma {:induction false} ChatsOfCount(chats: seq<Chat>, u: Oid)
    ensures forall c :: multiset(ChatsOf(chats, u))[c] == (if c.user == u then multiset(chats)[c] else 0)
    decreases |chats|
  {
    if chats != [] {
      assert chats == [chats[0]] + chats[1..];
      ChatsOfCount(chats[1..], u);
    }
  }

  lemma {:induction false} ChatsOfAppend(a: seq<Chat>, b: seq<Chat>, u: Oid)
    ensures ChatsOf(a + b, u) == ChatsOf(a, u) + ChatsOf(b, u)
    decreases |a|
  {
    if a != [] {
      var h := if a[0].user == u then [a[0]] else [];
      assert (a + b)[0] == a[0];
      assert (a + b)[1..] == a[1..] + b;
      ChatsOfAppend(a[1..], b, u);
      assert ChatsOf(a + b, u) == h + ChatsOf(a[1..] + b, u);
      assert ChatsOf(a, u) == h + ChatsOf(a[1..], u);
      var x, y := ChatsOf(a[1..], u), ChatsOf(b, u);
      assert h + (x + y) == (h + x) + y;
    } else {
      assert a + b == b;
    }
  }

  /** Replacing a chat `u` does not own by another chat `u` does not own
      leaves `u`'s chats as they were. */
  lemma {:induction false} ChatsOfUpdate(chats: seq<Chat>, i: nat, c: Chat, u: Oid)
    requires i < |chats|
    requires chats[i].user != u && c.user != u
    ensures ChatsOf(chats[i := c], u) == ChatsOf(chats, u)
    decreases i
  {
    if i > 0 {
      assert chats[i := c][1..] == chats[1..][i - 1 := c];
      ChatsOfUpdate(chats[1..], i - 1, c, u);
    }
  }

  /** Removing a chat owned by someone other than `u` leaves `u`'s chats. */
  lemma {:induction false} ChatsOfRemove(chats: seq<Chat>, i: nat, u: Oid)
    requires i < |chats| && chats[i].user != u
    ensures ChatsOf(chats[..i] + chats[i + 1..], u) == ChatsOf(chats, u)
    decreases i
  {
    if i == 0 {
      assert chats[..0] + chats[1..] == chats[1..];
    } else {
      var t := chats[1..];
      ChatsOfRemove(t, i - 1, u);
      var r := chats[..i] + chats[i + 1..];
      assert r[0] == chats[0];
      assert r[1..] == t[..i - 1] + t[i..];
    }
  }

  /** Dropping `v`'s thread leaves every other user's messages. */
  lemma {:induction false} MessagesOfDropThread(msgs: seq<Message>, chatId: Oid, v: Oid, u: Oid)
    requires u != v
    ensures MessagesOf(DropThread(msgs, chatId, v), u) == MessagesOf(msgs, u)
    decreases |msgs|
  {
    if msgs != [] {
      MessagesOfDropThread(msgs[1..], chatId, v, u);
      var head := if InThread(msgs[0], chatId, v) then [] else [msgs[0]];
      MessagesOfAppend(head, DropThread(msgs[1..], chatId, v), u);
    }
  }

  lemma OwnedChatStep(chats: seq<Chat>, id: Oid, u: Oid)
    requires chats != []
    ensures OwnedChat(chats, id, u)
      == if chats[0].id == id && chats[0].user == u then Some(chats[0]) else OwnedChat(chats[1..], id, u)
  {
  }

  /** The first chat of `u` with a given id is the same whether it is looked
      up among all chats or among `u`'s own. */
  lemma {:induction false} OwnedChatOfOwn(chats: seq<Chat>, id: Oid, u: Oid)
    ensures OwnedChat(ChatsOf(chats, u), id, u) == OwnedChat(chats, id, u)
    decreases |chats|
  {
    if chats != [] {
      OwnedChatOfOwn(chats[1..], id, u);
      OwnedChatStep(chats, id, u);
      if chats[0].user == u {
        var own := ChatsOf(chats, u);
        assert own == [chats[0]] + ChatsOf(chats[1..], u);
        assert own[1..] == ChatsOf(chats[1..], u);
        OwnedChatStep(own, id, u);
      } else {
        assert ChatsOf(chats, u) == ChatsOf(chats[1..], u);
      }
    }
  }

  /** `u`'s thread of a chat is the same whether it is read from all
      messages or from `u`'s own. */
  lemma {:induction false} ThreadOfOwn(msgs: seq<Message>, chatId: Oid, u: Oid)
    ensures Thread(MessagesOf(msgs, u), chatId, u) == Thread(msgs, chatId, u)
    decreases |msgs|
  {
    if msgs != [] {
      ThreadOfOwn(msgs[1..], chatId, u);
      var head := if msgs[0].user == u then [msgs[0]] else [];
      ThreadAppend(head, MessagesOf(msgs[1..], u), chatId, u);
    }
  }
}

=== FILE: user_controller.dfy ===
/**
 * Registration and login (controllers/userController.js) as transitions of
 * the user collection. bcrypt and the JSON Web Token library are pairs of
 * functions; what the handlers rely on from each is a stated assumption.
 */
module UserController {

  import opened Wrappers
  import opened Store

  /** bcryptjs as the handlers call it: `hash(password, salt)` is what
      `bcrypt.hash(password, 10)` stores for the salt it draws, and
      `compare(password, stored)` is `bcrypt.compare`. */
  datatype Bcrypt = Bcrypt(hash: (string, nat) -> string, compare: (string, string) -> bool)

  /** The assumption on bcrypt: a digest accepts the password it was made
      from. Nothing is assumed about which other passwords it accepts. */
  ghost predicate Accepts(b: Bcrypt) {
    forall password, salt :: b.compare(password, b.hash(password, salt))
  }

  /** A stored user: database id, login name, password digest. */
  datatype User = User(id: Oid, userId: string, password: string)

  /** Token signing and verification with the server secret. Expiry is not
      modelled: `verify` may reject any token. */
  datatype Jwt = Jwt(sign: Oid -> string, verify: string -> Option<Oid>)

  /** The assumption on the token library: a token it signed verifies to
      the id it carries, is non-empty, and contains no space. */
  ghost predicate Sound(jwt: Jwt) {
    forall id :: jwt.verify(jwt.sign(id)) == Some(id) && jwt.sign(id) != "" && ' ' !in jwt.sign(id)
  }

  /** The two ways the handlers look a user up: `User.findOne({ userId })`
      by login name and `User.findById(id)` by database id. */
  datatype UserKey = ByUserId(userId: string) | ById(id: Oid)

  predicate Matches(u: User, key: UserKey) {
    match key
    case ByUserId(userId) => u.userId == userId
    case ById(id) => u.id == id
  }

  /** The first user the key matches, in insertion order. */
  function FindUser(users: seq<User>, key: UserKey): (r: Option<User>)
    ensures r.Some? ==> r.value in users && Matches(r.value, key)
    ensures r.None? ==> forall u :: u in users ==> !Matches(u, key)
  {
    if users == [] then None
    else if Matches(users[0], key) then Some(users[0])
    else FindUser(users[1..], key)
  }

  /** The collection invariant registration keeps: login names and ids are
      unique. */
  predicate UsersValid(users: seq<User>) {
    forall i, j :: 0 <= i < j < |users| ==> users[i].userId != users[j].userId && users[i].id != users[j].id
  }

  // ---------------------------------------------------------------------
  // POST /api/users/register

  datatype RegisterReply =
    | Registered(userId: string)        // 201
    | RegisterRefused(message: string)  // 400

  /** `registerUser`. `salt` is bcrypt's random salt and `freshId` the id
      the database assigns. */
  function Register(b: Bcrypt, users: seq<User>, userId: string, password: string, salt: nat, freshId: Oid)
    : (out: (seq<User>, RegisterReply))
    ensures FindUser(users, ByUserId(userId)).Some? ==> out == (users, RegisterRefused("User already exists"))
    ensures FindUser(users, ByUserId(userId)).None? ==>
      && out.1 == Registered(userId)
      && out.0 == users + [User(freshId, userId, b.hash(password, salt))]
  {
    if FindUser(users, ByUserId(userId)).Some? then (users, RegisterRefused("User already exists"))
    else (users + [User(freshId, userId, b.hash(password, salt))], Registered(userId))
  }

  // ---------------------------------------------------------------------
  // POST /api/users/login

  datatype LoginReply =
    | LoggedIn(userId: string, token: string)  // 200
    | LoginRefused(message: string)            // 401

  /** `loginUser`. It returns no new collection: login writes nothing. */
  function Login(b: Bcrypt, jwt: Jwt, users: seq<User>, userId: string, password: string): (r: LoginReply)
    ensures r.LoginRefused? ==> r == LoginRefused("Invalid credentials")
    ensures r.LoggedIn? <==>
      FindUser(users, ByUserId(userId)).Some? && b.compare(password, FindUser(users, ByUserId(userId)).value.password)
    ensures r.LoggedIn? ==>
      r == LoggedIn(userId, jwt.sign(FindUser(users, ByUserId(userId)).value.id))
  {
    match FindUser(users, ByUserId(userId))
    case None => LoginRefused("Invalid credentials")
    case Some(user) =>
      if !b.compare(password, user.password) then LoginRefused("Invalid credentials")
      else LoggedIn(user.userId, jwt.sign(user.id))
  }

  // ---------------------------------------------------------------------
  // properties

  /** Appending a user to a collection where the key matched no one makes
      the key find exactly that user, if it matches it. */
  lemma {:induction false} FindUserAppend(users: seq<User>, u: User, key: UserKey)
    requires FindUser(users, key).None?
    ensures FindUser(users + [u], key) == if Matches(u, key) then Some(u) else None
    decreases |users|
  {
    if users != [] {
      assert (users + [u])[1..] == users[1..] + [u];
      FindUserAppend(users[1..], u, key);
    } else {
      assert [] + [u] == [u];
    }
  }

  /** Registration keeps login names and ids unique. */
  lemma RegisterKeepsUsersValid(b: Bcrypt, users: seq<User>, userId: string, password: string, salt: nat, freshId: Oid)
    requires UsersValid(users)
    requires forall u :: u in users ==> u.id != freshId
    ensures UsersValid(Register(b, users, userId, password, salt, freshId).0)
  {
    var users' := Register(b, users, userId, password, salt, freshId).0;
    if FindUser(users, ByUserId(userId)).None? {
      forall i, j | 0 <= i < j < |users'|
        ensures users'[i].userId != users'[j].userId && users'[i].id != users'[j].id
      {
        if j == |users| {
          assert users'[i] in users;
        }
      }
    }
  }

  /** A wrong password and an unknown login name are refused alike. */
  lemma LoginFailuresIndistinguishable(b: Bcrypt, jwt: Jwt, users: seq<User>, known: string, wrong: string,
                                       unknown: string, any: string)
    requires FindUser(users, ByUserId(known)).Some?
    requires !b.compare(wrong, FindUser(users, ByUserId(known)).value.password)
    requires FindUser(users, ByUserId(unknown)).None?
    ensures Login(b, jwt, users, known, wrong) == Login(b, jwt, users, unknown, any) == LoginRefused("Invalid credentials")
  {
  }

  /** After registering, the same credentials log in, with a token for the
      new user's id; a password the stored digest does not accept is
      refused. */
  lemma RegisterThenLogin(b: Bcrypt, jwt: Jwt, users: seq<User>, userId: string, password: string, other: string,
                          salt: nat, freshId: Oid)
    requires Accepts(b)
    requires FindUser(users, ByUserId(userId)).None?
    ensures var users' := Register(b, users, userId, password, salt, freshId).0;
      && Login(b, jwt, users', userId, password) == LoggedIn(userId, jwt.sign(freshId))
      && (!b.compare(other, b.hash(password, salt)) ==> Login(b, jwt, users', userId, other) == LoginRefused("Invalid credentials"))
  {
    FindUserAppend(users, User(freshId, userId, b.hash(password, salt)), ByUserId(userId));
  }
}

=== FILE: wrappers.dfy ===
/** Optional values, standing in for JavaScript's `undefined` / `null` results of lookups. */
module Wrappers {

  datatype Option<+T> = None | Some(value: T)
}
